=== FILE: README.md ===
# processPDF page orchestration, in Dafny

This project models the core of `processPDF` in `pdf-aiparser.js`. That is the function that walks a PDF page by page. For each page it:

- extracts the page's text;
- renders the page to PNG;
- asks an inference endpoint to describe the image, with retries;
- writes one JSON record per page;
- on failure, appends to an error log.

At the end it combines the per-page records into one result.

The model covers:

- **Resume discovery.** The largest page number found in the names of the `json/` directory.
- **Range resolution and validation.** Explicit ranges versus resumed runs.
- **The loop and its skip rule.**
- **Two-tier text extraction.** The single-page tier first, then a fallback that splits the whole document's text on page breaks, with sentinel strings for unreliable or failed extraction.
- **The retry loop.** Bounded, fixed-delay retries around the describer, including its rejection of a non-buffer input.
- **Page-failure isolation.** The record write, and the error log.
- **The combine step.**

What the libraries, the filesystem and the endpoint do is an input to the model. The model has no I/O:

- **Per page**, a `Pipeline.PageWorld` gives:
  - the single-page tier's text, or a failure;
  - the whole-document parse, or a failure;
  - the rendered image bytes, or the error thrown while rendering or reading them back;
  - the endpoint's outcome on each attempt;
  - the error thrown while writing the record, if any.
- **Per run**, the document's page count, or the error thrown while loading it.
- **Per run**, whether writing `combined_results.json` fails.

The record directory is a listing of names plus a map from file name to record (`PageStore.JsonDir`). The error log is an append-only sequence of (page, message) entries.

`Pipeline.ProcessPdf` is `Pipeline.Orchestrate` with each page's outcome given by `Pipeline.ProcessPage` over that page's collaborators. Run-level properties are stated about `Orchestrate` for arbitrary per-page outcomes, so they hold for `ProcessPdf` as well. The `PdfRun` lemmas restate the per-page ones in terms of the collaborators.

Modules, in dependency order:

| file | module | contents |
|---|---|---|
| outcomes.dfy | Outcomes | `Option`, `Result` |
| decimal.dfy | Decimal | decimal rendering (`${n}`) and digit parsing (`parseInt` of a digit run) |
| page_files.dfy | PageFiles | `page_N.json` names, the `/page_(\d+)\.json$/` match, the resume point |
| page_store.dfy | PageStore | records, the record directory, `Save`, `Combine` |
| page_range.dfy | PageRange | options, the explicit-range test, range resolution and validation |
| text_extraction.dfy | TextExtraction | the `/\f\|\n{3,}/` split, the fallback tier, the sentinels |
| describer.dfy | Describer | the retry loop and the describer's buffer check |
| pipeline.dfy | Pipeline | one page's `try` block, the loop, the run |
| pipeline_properties.dfy | PipelineProperties | properties of the loop and of a run |
| pdf_run.dfy | PdfRun | properties of a run in terms of each page's collaborators |

Two behaviours of the code that are easy to miss:

- **Record write failures.** The record write (line 232) is inside the page's `try`, so a failure there fails only that page: it is logged, and the loop goes on. In the model, only a failure to write the combined file (line 260) aborts the run after the loop. Reading the records back (lines 252-253) is taken never to fail; see "Left out".
- **Absent options.** An absent `startPage` or `endPage` counts as an explicit range, because the test at lines 72 and 110 compares the raw options, not the merged configuration. So `processPDF(path)` with no options reprocesses every page instead of resuming.

## Model

| member | source | states |
|---|---|---|
| Decimal.ParseNatToString | pdf-aiparser.js:48-49 | the decimal digits of a page number parse back to that number |
| Decimal.IntToStringInjective | pdf-aiparser.js:109 | distinct page numbers render to distinct strings, negative numbers included |
| PageFiles.TrailingDigits | pdf-aiparser.js:48 | the greedy `(\d+)` before `.json` takes exactly the longest run of digits ending there |
| PageFiles.MatchPageSuffixComplete | pdf-aiparser.js:46-49 | every name `<anything>page_<digits>.json` is accepted, with the value of exactly those digits |
| PageFiles.MatchPageSuffixSound | pdf-aiparser.js:46-49 | every accepted name has that shape, and the number is the value of its digit run |
| PageFiles.MatchPageFileName | pdf-aiparser.js:46-49 | the program's own record file of page n is recognised as n when n >= 0 and ignored when n < 0 |
| PageFiles.ResumePointIsGreatestMatch | pdf-aiparser.js:45-54 | the resume point bounds every page number the listing yields, and is yielded by some entry unless it is 0; non-matching names are ignored |
| PageFiles.WritingPageRaisesResumePoint | pdf-aiparser.js:45-54 | writing the record of a page at or past the resume point makes that page the resume point |
| PageFiles.ZeroPaddedNameMatches | pdf-aiparser.js:48-49 | `page_007.json` counts as page 7 for resuming, though it is not the name page 7 is written under |
| PageFiles.PrefixedNameMatches | pdf-aiparser.js:48-49 | `old_page_7.json` counts as page 7 for resuming |
| PageFiles.MalformedNamesIgnored | pdf-aiparser.js:46-51 | `page_.json` and `page_7.json.bak` are ignored |
| PageStore.PageFileNameInjective | pdf-aiparser.js:109 | distinct pages are stored under distinct files |
| PageStore.Save | pdf-aiparser.js:232 | writing a page's record makes it that page's record and touches no other file: every other entry, page file or not, keeps its presence and its contents; the listing gains exactly that file's name, appended if it was new; the listing and the records' page numbers stay consistent |
| PageStore.SaveRaisesResumePoint | pdf-aiparser.js:45-54 | saving the record of a page at or past the resume point makes that page the resume point, whether or not its file already existed |
| PageStore.PresentPagesExactly | pdf-aiparser.js:249-252 | the pages the combine loop finds are exactly those of 1..pageCount that have a record, each once, ascending |
| PageStore.CombineMatchesPresentPages | pdf-aiparser.js:248-256 | position k of the combined result is the stored record of the k-th present page |
| PageStore.CombineOrdered | pdf-aiparser.js:248-256 | the combined result is in strictly ascending page order; page n appears iff 1 <= n <= pageCount and n has a record |
| PageStore.CombineDependsOnlyOnPages | pdf-aiparser.js:248-256 | two directories that agree on pages 1..pageCount combine identically |
| PageStore.PagesWithinResumePoint | pdf-aiparser.js:45-54 | no listed record lies above the resume point |
| PageStore.ResumePointOfPages | pdf-aiparser.js:45-54 | a directory whose entries are exactly the records of pages 1..k resumes at k, whatever order the listing gives them in |
| PageStore.ResumePointOfFirstPages | pdf-aiparser.js:45-54 | the listing `page_1.json` .. `page_k.json`, in that order, resumes at k |
| PageRange.Bounds | pdf-aiparser.js:69-82 | explicit: start = startPage-1, unclamped; resumed: start = resume point; the end is at most both pageCount-1 and endPage-1 and equals one of them, i.e. their minimum |
| PageRange.ResolveRange | pdf-aiparser.js:84-87 | the range is accepted iff start <= end, and is then the resolved range; a rejection reports exactly start+1 and end+1, the start page above the end page |
| PageRange.AbsentOptionsAreExplicit | pdf-aiparser.js:72 | omitting the options, or giving only one of the two, counts as an explicit range |
| PageRange.ResumeModeRange | pdf-aiparser.js:77-82 | a non-explicit run covers resume point..pageCount-1 |
| PageRange.NoOptionsCoverDocument | pdf-aiparser.js:69-87 | with the options omitted, a document of 1 to `MAX_SAFE_INTEGER` pages is accepted as the whole range 0..pageCount-1, whatever the resume point |
| PageRange.DefaultOptionsCoverFreshDocument | pdf-aiparser.js:69-87 | with the default options and resume point 0, a document of 1 to `MAX_SAFE_INTEGER` pages is accepted as the whole range 0..pageCount-1 |
| PageRange.ResumeModeFailsWhenDone | pdf-aiparser.js:79-87 | a non-explicit run fails validation iff the resume point is at or past the page count, with the pages it reports |
| PageRange.ExplicitStartNotClamped | pdf-aiparser.js:74 | an explicit start page below 1 gives a negative start index |
| PageRange.ReversedRangeRejected | pdf-aiparser.js:84-87 | pages 5 to 3 are rejected on any document |
| PageRange.EndOnlyIgnoresResumePoint | pdf-aiparser.js:72-75 | setting only a non-default end page starts at page 1 whatever the resume point |
| TextExtraction.SplitRoundTrip | pdf-aiparser.js:150 | the split loses nothing: its blocks with the separators put back give the text |
| TextExtraction.SplitShape | pdf-aiparser.js:150 | every block is free of page breaks and every separator is a form feed or a run of three or more newlines |
| TextExtraction.SplitGreedy | pdf-aiparser.js:150 | every newline-run separator is taken whole: no newline precedes it and none follows it, also across an empty block |
| TextExtraction.SixNewlinesOneSeparator | pdf-aiparser.js:150 | splitting a run of six newlines into two separators is not greedy |
| TextExtraction.SplitBlocksAreBlocks | pdf-aiparser.js:150 | no block of any text contains a page break |
| TextExtraction.SplitThroughBlock | pdf-aiparser.js:150 | a block followed by a form feed or the end of the text is read whole into the current block |
| TextExtraction.SplitJoinPages | pdf-aiparser.js:150 | page texts without page breaks, joined by form feeds, split back into the same pages |
| TextExtraction.ExtractionTiers | pdf-aiparser.js:121-161 | page N's text is the single-page tier's text when it succeeds; else block N-1 of the whole document's split, or the unreliable sentinel when there are fewer than N blocks; a page number below 1 gets `''` from the fallback; else, when the whole-document parse also fails, the failure sentinel |
| TextExtraction.SentinelTexts | pdf-aiparser.js:155-159 | the sentinels read `[Unable to extract text reliably for page N]` and `[Text extraction failed for page N]` |
| TextExtraction.SinglePageTierWins | pdf-aiparser.js:121-138 | a successful single-page tier decides the text, and the fallback is never consulted |
| TextExtraction.FallbackFindsPage | pdf-aiparser.js:149-156 | on a document text of page texts joined by form feeds, page N gets its own text, and a page beyond the last gets the unreliable-extraction sentinel |
| TextExtraction.FallbackWithoutBreaks | pdf-aiparser.js:150-156 | a text without page breaks goes wholly to page 1, and every later page gets the sentinel |
| TextExtraction.FallbackTextIsBlock | pdf-aiparser.js:150-153 | the fallback text of a page within the split never spans a page break |
| Describer.RetryFrom | pdf-aiparser.js:203-218 | from attempt r+1, the loop stops at the first success or after the third attempt, with one delay fewer than calls |
| Describer.Describe | pdf-aiparser.js:200-218 | 1 to 3 calls and one delay fewer; no attempt before the last succeeded; the description is the last attempt's response or, after three failures, the sentinel |
| Describer.FirstSuccessIsReturned | pdf-aiparser.js:203-213 | if attempt k is the first success, there are exactly k calls and k-1 delays, and that response is the description |
| Describer.ExhaustionGivesSentinel | pdf-aiparser.js:203-216 | three failures give three calls, exactly two delays (10 seconds) and the sentinel |
| Describer.NonBufferExhausts | pdf-aiparser.js:272-274 | a non-buffer image exhausts all attempts whatever the endpoint does |
| Describer.ExhaustedSentinelText | pdf-aiparser.js:215 | the sentinel reads `[Failed to get image description after 3 attempts]` |
| Pipeline.ProcessPage | pdf-aiparser.js:116-235 | a page succeeds iff rendering and the record write succeed; a failure carries the message of the first error thrown; a success is the record of that page |
| Pipeline.ProcessedRecordContents | pdf-aiparser.js:119-229 | a page's record holds the extraction tiers' text and the retry loop's description: the first response within three attempts, or the sentinel after three failures |
| Pipeline.Visit | pdf-aiparser.js:225-243 | a visited page's success saves its record; its failure appends its entry and leaves the records as they were; no other page's record changes |
| Pipeline.Orchestrate | pdf-aiparser.js:16-268 | the run returns a result iff the document loads, the range is valid and the combined file is written, whatever happens to individual pages; otherwise it fails with the load error, the range error or the combined-write error, in that order of precedence; a load or range failure changes nothing on disk; a success returns, and saves as the combined file, the combine of the final record directory (so combining again gives the same output); a fatal error leaves the combined file as it was |
| PipelineProperties.FailureEntryPresent | pdf-aiparser.js:236-240 | every failed page among those processed gets its log entry |
| PipelineProperties.FailureEntriesSound | pdf-aiparser.js:236-240 | every logged entry names a processed page that failed with that message |
| PipelineProperties.RunPagesStore | pdf-aiparser.js:103-243 | after the loop, a page in the range holds its new record if it was attempted and succeeded, and its old record otherwise; pages outside the range are untouched |
| PipelineProperties.RunPagesSavesSuccesses | pdf-aiparser.js:103-233 | every attempted page that succeeds ends with its new record |
| PipelineProperties.RunPagesKeepsOthers | pdf-aiparser.js:103-243 | skipped pages, failed pages and pages outside the range keep their records |
| PipelineProperties.RunPagesProcessed | pdf-aiparser.js:103-114 | page n is attempted iff it lies in the range and the skip rule, applied to the records before the loop, does not skip it |
| PipelineProperties.RunPagesAscending | pdf-aiparser.js:103-104 | attempted pages lie in the range, in strictly ascending order |
| PipelineProperties.RunPagesErrorLog | pdf-aiparser.js:236-243 | the loop appends exactly the entries of the failed attempted pages, in order, to the log it found |
| PipelineProperties.RunPagesKeepsInvariants | pdf-aiparser.js:103-243 | the loop keeps the listing in step with the files and every record under its own page's name |
| PipelineProperties.VisitKeepsLaterUnskipped | pdf-aiparser.js:108-114 | visiting a page does not make a later page skipped |
| PipelineProperties.RunPagesVisitsAll | pdf-aiparser.js:103-114 | when no page of the range is skipped, the loop attempts every page of it in order |
| PipelineProperties.ExplicitLoopVisitsAll | pdf-aiparser.js:108-114 | an explicit loop attempts every page of its range |
| PipelineProperties.ResumeLoopVisitsAll | pdf-aiparser.js:103-114 | a resumed loop attempts exactly the pages after the resume point, in order |
| PipelineProperties.ResumeLoopStore | pdf-aiparser.js:103-233 | a resumed loop keeps pages up to the resume point, and gives each later page in range its new record or none |
| PipelineProperties.RangeFailureTouchesNothing | pdf-aiparser.js:84-87 | a rejected range aborts the run before any page is processed, leaving the disk unchanged |
| PipelineProperties.ReversedRangeFailsCleanly | pdf-aiparser.js:84-87 | pages 5 to 3 fail the run with nothing processed and nothing written |
| PipelineProperties.ResumeProcessesRemainingPages | pdf-aiparser.js:79-114 | a resumed run attempts exactly pages resume point+1..pageCount, in order |
| PipelineProperties.ResumeStoreEffect | pdf-aiparser.js:79-233 | a resumed run keeps the records up to the resume point, and gives each later page its new record or leaves it without one |
| PipelineProperties.ExplicitRangeVisitsAll | pdf-aiparser.js:72-114 | an explicit run attempts every page of its range, existing records or not |
| PipelineProperties.ExplicitRangeOverwrites | pdf-aiparser.js:72-233 | an explicit run replaces the record of every page of its range that succeeds, even one that already had a record |
| PipelineProperties.PageFailureIsolated | pdf-aiparser.js:116-243 | a failed attempted page keeps its old record and gets a log entry with its message; the earlier log is kept as a prefix |
| PipelineProperties.ErrorLogEntriesAreFailures | pdf-aiparser.js:236-240 | every entry a run adds names an attempted page that failed with that message |
| PipelineProperties.RunKeepsInvariants | pdf-aiparser.js:103-243 | a run keeps the listing in step with the files, and every record under its own page's name |
| PipelineProperties.CombinedResultOrdered | pdf-aiparser.js:248-264 | a run returns records in strictly ascending page order, exactly those of pages 1..pageCount that have one |
| PipelineProperties.FreshRunReturnsEveryPage | pdf-aiparser.js:45-264 | on an empty directory, with options that resolve to the whole document (explicit or resumed), when every page succeeds, the run returns one record per page, page k's new record at position k-1 |
| PipelineProperties.NoOptionsRunReturnsEveryPage | pdf-aiparser.js:45-264 | `processPDF(path)` with the options omitted, on an empty directory, when every page succeeds, returns one record per page, page k's new record at position k-1 |
| PipelineProperties.RunPagesLogsNothing | pdf-aiparser.js:236-243 | a loop in which every page succeeds leaves the error log as it was |
| PipelineProperties.SuccessfulRunLogsNothing | pdf-aiparser.js:116-243 | a run in which every page of its range succeeds adds no error-log entry |
| PipelineProperties.AllPagesPresent | pdf-aiparser.js:249-256 | when every page 1..count has a record, the combine loop finds all of them in order |
| PipelineProperties.ThreePageScenario | pdf-aiparser.js:103-264 | a three-page document with default options, no records and three successes returns the three new records in page order; when each record names its own page, the page numbers read 1, 2, 3 |
| PdfRun.AttemptedPageStore | pdf-aiparser.js:116-243 | an attempted page ends with the record its `try` block built, or with its old record when the block threw |
| PdfRun.AttemptedPageRecord | pdf-aiparser.js:116-235 | an attempted page that renders and is written holds a record of its own page, with the tiers' text and the retry loop's description |
| PdfRun.AttemptedPageFirstResponse | pdf-aiparser.js:200-232 | when the endpoint first answers on attempt k, that answer is the stored description |
| PdfRun.AttemptedPageExhausted | pdf-aiparser.js:200-232 | when all three attempts fail, the stored description is `[Failed to get image description after 3 attempts]` |
| PdfRun.AttemptedPageFailure | pdf-aiparser.js:116-243 | an attempted page whose render or record write throws keeps its old record and is logged with that error's message |
| PdfRun.ThreePageDocument | pdf-aiparser.js:16-264 | a three-page document on an empty directory, default options, each page with single-page text and an immediate answer, returns pages 1, 2, 3 in order with their own text and description |

## Left out

- Filesystem calls. Directory creation, the image file and the temporary single-page PDF are not modelled, and no call fails except the ones listed as inputs above. A failure to create the directories (lines 37-42) or to read the input file (line 59) is modelled only as a load failure.
- Temporary-file I/O in the single-page tier (lines 123-137). It is inside the tier's `try`, so any failure there, including the unlink after a successful parse, makes the tier fail. It is modelled as an absent single-page text.
- Reading the records back in the combine step (lines 252-253). `JSON.parse` of a record file is taken to return the record that was written; a corrupt record file is not modelled.
- Error-log append failures. The error-log append at line 240 is taken never to throw. In the code such a failure would escape the page's `catch` and abort the run.
- Error-log formatting. The entry's text (`Error on page N: message`, the stack trace and the blank line) is reduced to the page number and the message.
- Library internals. pdf-lib, pdf-parse, pdf2pic and axios are out of scope. Their results are inputs: the page count, the tiers' texts, the rendered bytes, and each attempt's outcome.
- Endpoint details. The request body, base64 encoding, the timeout option and the response's shape (`response.data.response`) are not modelled. A successful attempt is taken to yield a string.
- Retry timing. The delay is counted (`Describer.WaitedMs`) rather than slept.
- Text normalisation. The coercion of a non-string text (lines 163-181) is the identity here, because every text in the model is a string.
- Logging. Console output, the progress percentage (line 106) and the short-text warning (lines 184-186) are not modelled.
- CLI parsing. Argument parsing and `process.exit` (lines 303-323) are not modelled. Options are optional integers; a non-integer, NaN or non-number option value is not modelled.
- PageFiles.MatchPageSuffix: a page number is parsed exactly. `parseInt` rounds digit runs beyond 2^53 to a floating-point value, and the model does not.
- PageFiles.ResumePointIsGreatestMatch: the maximum is taken over any number of entries. `Math.max(...list)` throws on a listing too large to spread into arguments, and the model does not.
- PageRange.Bounds: the range arithmetic is exact integer arithmetic. Floating-point rounding of options beyond 2^53 is not modelled.
- Pipeline.ProcessPdf: the record a page ends with is exactly the value built. A record whose description is `undefined` would be written without that key; this case is not modelled.
- Partial writes. A write that fails part-way through (of a record or of the combined file) is modelled as leaving the file as it was.

=== FILE: decimal.dfy ===
/** Decimal rendering and parsing of integers, as used in page file names
    (`page_${pageNumber}.json`), sentinel strings and `parseInt` of a
    digit run. */
module Decimal {

  predicate IsDigit(c: char) {
    '0' <= c <= '9'
  }

  predicate AllDigits(s: string) {
    forall i :: 0 <= i < |s| ==> IsDigit(s[i])
  }

  function DigitChar(d: nat): (c: char)
    requires d < 10
    ensures IsDigit(c)
  {
    (d + '0' as int) as char
  }

  function DigitValue(c: char): (d: nat)
    requires IsDigit(c)
    ensures d < 10
    ensures DigitChar(d) == c
  {
    (c as int - '0' as int)
  }

  /** The decimal rendering of a natural number. */
  function NatToString(n: nat): string
    decreases n
  {
    if n < 10 then [DigitChar(n)]
    else NatToString(n / 10) + [DigitChar(n % 10)]
  }

  /** A rendering has at least one digit, only digits, and no leading zero
      unless the number itself is zero. */
  lemma {:induction false} NatToStringShape(n: nat)
    ensures |NatToString(n)| >= 1 && AllDigits(NatToString(n))
    ensures NatToString(n)[0] == '0' ==> n == 0
    decreases n
  {
    if n >= 10 {
      NatToStringShape(n / 10);
      assert NatToString(n)[0] == NatToString(n / 10)[0];
    }
  }

  /** JavaScript's rendering of an integer in a template literal. */
  function IntToString(n: int): string {
    if n < 0 then "-" + NatToString(-n) else NatToString(n)
  }

  /** A rendering is non-empty; it is all digits exactly for a non-negative
      number and starts with a minus sign exactly for a negative one. */
  lemma IntToStringShape(n: int)
    ensures |IntToString(n)| >= 1
    ensures n >= 0 <==> AllDigits(IntToString(n))
    ensures n < 0 <==> IntToString(n)[0] == '-'
  {
    if n < 0 {
      NatToStringShape(-n);
      assert !IsDigit(IntToString(n)[0]);
    } else {
      NatToStringShape(n);
    }
  }

  /** `parseInt` applied to a string of decimal digits (leading zeros are
      allowed and ignored). */
  function ParseDigits(s: string): nat
    requires AllDigits(s)
  {
    if |s| == 0 then 0
    else ParseDigits(s[..|s| - 1]) * 10 + DigitValue(s[|s| - 1])
  }

  /** Parsing undoes rendering. */
  lemma {:induction false} ParseNatToString(n: nat)
    ensures AllDigits(NatToString(n)) && ParseDigits(NatToString(n)) == n
    decreases n
  {
    NatToStringShape(n);
    var s := NatToString(n);
    if n >= 10 {
      ParseNatToString(n / 10);
      assert s[..|s| - 1] == NatToString(n / 10);
    }
  }

  /** Leading zeros do not change the parsed value. */
  lemma {:induction false} ParseLeadingZero(s: string)
    requires AllDigits(s)
    ensures ParseDigits("0" + s) == ParseDigits(s)
    decreases |s|
  {
    if |s| > 0 {
      var t := "0" + s;
      assert t[..|t| - 1] == "0" + s[..|s| - 1];
      ParseLeadingZero(s[..|s| - 1]);
    }
  }

  /** Distinct naturals have distinct renderings. */
  lemma NatToStringInjective(a: nat, b: nat)
    ensures NatToString(a) == NatToString(b) ==> a == b
  {
    ParseNatToString(a);
    ParseNatToString(b);
  }

  /** Distinct integers have distinct renderings, so page file names never
      collide. */
  lemma IntToStringInjective(a: int, b: int)
    ensures IntToString(a) == IntToString(b) ==> a == b
  {
    IntToStringShape(a);
    IntToStringShape(b);
    if IntToString(a) == IntToString(b) && a < 0 && b < 0 {
      assert ("-" + NatToString(-a))[1..] == NatToString(-a);
      assert ("-" + NatToString(-b))[1..] == NatToString(-b);
      NatToStringInjective(-a, -b);
    } else if a >= 0 && b >= 0 {
      NatToStringInjective(a, b);
    }
  }
}

=== FILE: describer.dfy ===
/** The image-description call with bounded fixed-delay retry
    (pdf-aiparser.js, lines 9-10, 198-218) and the describer's own input
    check (lines 271-274). Each attempt's transport outcome is an input;
    a delay is counted rather than slept. */
module Describer {
  import opened Decimal

  const MaxRetries: nat := 3
  const RetryDelayMs: nat := 5000

  /** What the inference endpoint did on one attempt: answered with a
      description, or failed (network error, timeout, error status). */
  datatype Transport = Responded(response: string) | Failed(message: string)

  /** The value handed to the describer: a byte buffer, or anything else. */
  datatype Image = Buffer(bytes: seq<bv8>) | NotBuffer

  /** `[Failed to get image description after 3 attempts]`. */
  function ExhaustedSentinel(): string {
    "[Failed to get image description after " + IntToString(MaxRetries) + " attempts]"
  }

  /** One call of the describer: a non-buffer input is rejected before any
      request is sent; otherwise the outcome is the transport's. */
  function Request(image: Image, outcome: Transport): (r: Transport)
    ensures image.NotBuffer? ==> r.Failed?
    ensures image.Buffer? ==> r == outcome
  {
    match image
    case NotBuffer => Failed("Input must be a buffer")
    case Buffer(_) => outcome
  }

  /** The result of the retry loop: the description stored in the page
      record, how many times the describer was called and how many delays
      were waited. */
  datatype Described = Described(description: string, calls: nat, delays: nat)

  /** Attempt number `attempt` (counted from 1) received a response. */
  predicate SucceedsOn(image: Image, transport: nat -> Transport, attempt: nat) {
    Request(image, transport(attempt)).Responded?
  }

  /** The retry loop entered with `retryCount` failures so far. */
  function RetryFrom(image: Image, transport: nat -> Transport, retryCount: nat): (d: Described)
    requires retryCount < MaxRetries
    ensures retryCount < d.calls <= MaxRetries
    ensures d.delays == d.calls - 1
    ensures forall k :: retryCount < k < d.calls ==> !SucceedsOn(image, transport, k)
    ensures SucceedsOn(image, transport, d.calls) ==>
              d.description == Request(image, transport(d.calls)).response
    ensures !SucceedsOn(image, transport, d.calls) ==>
              d.calls == MaxRetries && d.description == ExhaustedSentinel()
    decreases MaxRetries - retryCount
  {
    var attempt := retryCount + 1;
    match Request(image, transport(attempt))
    case Responded(description) => Described(description, attempt, retryCount)
    case Failed(_) =>
      if attempt < MaxRetries then RetryFrom(image, transport, attempt)
      else Described(ExhaustedSentinel(), MaxRetries, MaxRetries - 1)
  }

  /** The description of a page image: the first successful response among
      at most three attempts, with one fixed delay between consecutive
      attempts; after three failures, the exhaustion sentinel. It never
      fails. */
  function Describe(image: Image, transport: nat -> Transport): (d: Described)
    ensures 1 <= d.calls <= MaxRetries
    ensures d.delays == d.calls - 1
    ensures forall k :: 1 <= k < d.calls ==> !SucceedsOn(image, transport, k)
    ensures SucceedsOn(image, transport, d.calls) ==>
              d.description == Request(image, transport(d.calls)).response
    ensures !SucceedsOn(image, transport, d.calls) ==>
              d.calls == MaxRetries && d.description == ExhaustedSentinel()
  {
    RetryFrom(image, transport, 0)
  }

  /** Total time waited between attempts, in milliseconds. */
  function WaitedMs(d: Described): nat {
    d.delays * RetryDelayMs
  }

  /** If the first successful attempt is attempt k, the describer is called
      exactly k times, waits k-1 delays and returns that attempt's response. */
  lemma FirstSuccessIsReturned(image: Image, transport: nat -> Transport, k: nat)
    requires 1 <= k <= MaxRetries
    requires SucceedsOn(image, transport, k)
    requires forall j :: 1 <= j < k ==> !SucceedsOn(image, transport, j)
    ensures Describe(image, transport).calls == k
    ensures Describe(image, transport).delays == k - 1
    ensures Describe(image, transport).description == Request(image, transport(k)).response
  {
  }

  /** If all three attempts fail, the describer is called three times,
      waits exactly two delays (never three) and returns the sentinel. */
  lemma ExhaustionGivesSentinel(image: Image, transport: nat -> Transport)
    requires forall j :: 1 <= j <= MaxRetries ==> !SucceedsOn(image, transport, j)
    ensures Describe(image, transport) == Described(ExhaustedSentinel(), 3, 2)
    ensures WaitedMs(Describe(image, transport)) == 10000
  {
  }

  /** A non-buffer input exhausts every attempt whatever the endpoint does. */
  lemma NonBufferExhausts(transport: nat -> Transport)
    ensures Describe(NotBuffer, transport) == Described(ExhaustedSentinel(), 3, 2)
  {
    ExhaustionGivesSentinel(NotBuffer, transport);
  }

  /** The sentinel's text, with the attempt count rendered. */
  lemma ExhaustedSentinelText()
    ensures ExhaustedSentinel() == "[Failed to get image description after 3 attempts]"
  {
    assert IntToString(3) == "3";
  }
}

=== FILE: outcomes.dfy ===
/** The two shapes a collaborator's answer takes in this model: a value that
    may be missing, and a value or the error thrown instead of it. */
module Outcomes {

  /** A property the caller left out of the options object, or an
      extraction tier that produced no text. */
  datatype Option<T> = None | Some(value: T) {

    /** One property of `{ ...defaults, ...options }`: the caller's value
        when given, else `fallback`. */
    function GetOr(fallback: T): T {
      if Some? then value else fallback
    }
  }

  /** What a step that may throw leaves behind: its value, or the error. */
  datatype Result<T, E> = Ok(value: T) | Err(error: E) {

    /** The value when the step succeeded; nothing when it threw. */
    function ToOption(): Option<T> {
      if Ok? then Some(value) else None
    }
  }
}

=== FILE: page_files.dfy ===
/** Names of per-page record files and discovery of the resume point from a
    listing of the record directory (pdf-aiparser.js, lines 44-54). */
module PageFiles {
  import opened Outcomes
  import opened Decimal

  const PagePrefix: string := "page_"
  const JsonExtension: string := ".json"

  /** The file a page's record is written to and looked up under:
      `page_${pageNumber}.json`. */
  function PageFileName(pageNumber: int): string {
    PagePrefix + IntToString(pageNumber) + JsonExtension
  }

  predicate EndsWith(s: string, suffix: string) {
    |suffix| <= |s| && s[|s| - |suffix|..] == suffix
  }

  /** Length of the longest run of decimal digits at the end of `s`. */
  function TrailingDigits(s: string): (k: nat)
    ensures k <= |s|
    ensures forall i :: |s| - k <= i < |s| ==> IsDigit(s[i])
    ensures k < |s| ==> !IsDigit(s[|s| - k - 1])
  {
    if |s| == 0 || !IsDigit(s[|s| - 1]) then 0
    else TrailingDigits(s[..|s| - 1]) + 1
  }

  /** The trailing run of digits, as a string of digits. */
  lemma TrailingRunIsDigits(s: string)
    ensures AllDigits(s[|s| - TrailingDigits(s)..])
  {
  }

  /** A digit run that follows a non-digit is exactly the trailing run. */
  lemma {:induction false} TrailingDigitsAfter(prefix: string, digits: string)
    requires |prefix| > 0 && !IsDigit(prefix[|prefix| - 1])
    requires AllDigits(digits)
    ensures TrailingDigits(prefix + digits) == |digits|
    decreases |digits|
  {
    var s := prefix + digits;
    if |digits| == 0 {
      assert s == prefix;
    } else {
      assert s[..|s| - 1] == prefix + digits[..|digits| - 1];
      TrailingDigitsAfter(prefix, digits[..|digits| - 1]);
    }
  }

  /** The page number that the pattern `/page_(\d+)\.json$/` extracts from a
      directory entry, or None when the entry does not match. The pattern
      is not anchored at the start, so any prefix is accepted; a name that
      does not end in `.json` never matches. */
  function MatchPageSuffix(name: string): Option<nat> {
    if !EndsWith(name, JsonExtension) then None
    else
      var stem := name[..|name| - |JsonExtension|];
      var k := TrailingDigits(stem);
      var head := stem[..|stem| - k];
      if k >= 1 && EndsWith(head, PagePrefix) then Some(ParseDigits(stem[|stem| - k..]))
      else None
  }

  /** Splitting a concatenation back into its parts. */
  lemma EndsWithAppend(a: string, b: string)
    ensures EndsWith(a + b, b)
    ensures (a + b)[..|a|] == a
    ensures (a + b)[|a|..] == b
  {
    assert (a + b)[|a|..] == b;
    assert (a + b)[..|a|] == a;
  }

  /** A run of digits between a name ending in `page_` and `.json` is
      matched, and the number is the value of exactly those digits. */
  lemma MatchAfterPrefix(front: string, digits: string)
    requires EndsWith(front, PagePrefix)
    requires |digits| >= 1 && AllDigits(digits)
    ensures MatchPageSuffix(front + digits + JsonExtension) == Some(ParseDigits(digits))
  {
    var stem := front + digits;
    EndsWithAppend(stem, JsonExtension);
    EndsWithAppend(front, digits);
    // The underscore closing the prefix is not a digit, so the run of
    // trailing digits is exactly `digits`.
    assert front[|front| - 1] == front[|front| - |PagePrefix|..][|PagePrefix| - 1] == '_';
    TrailingDigitsAfter(front, digits);
  }

  /** Every name of the shape `<anything>page_<digits>.json` matches, and
      the number is the value of exactly those digits. */
  lemma MatchPageSuffixComplete(head: string, digits: string)
    requires |digits| >= 1 && AllDigits(digits)
    ensures MatchPageSuffix(head + PagePrefix + digits + JsonExtension) == Some(ParseDigits(digits))
  {
    EndsWithAppend(head, PagePrefix);
    MatchAfterPrefix(head + PagePrefix, digits);
  }

  /** A sequence is its prefix followed by the rest. */
  lemma SplitAt(s: string, i: nat)
    requires i <= |s|
    ensures s == s[..i] + s[i..]
  {
  }

  /** Conversely, every match comes from a name of that shape. */
  lemma MatchPageSuffixSound(name: string)
    requires MatchPageSuffix(name).Some?
    ensures exists head: string, digits: string ::
              |digits| >= 1 && AllDigits(digits) &&
              name == head + PagePrefix + digits + JsonExtension &&
              MatchPageSuffix(name) == Some(ParseDigits(digits))
  {
    var stem := name[..|name| - |JsonExtension|];
    var k := TrailingDigits(stem);
    var head := stem[..|stem| - k];
    var digits := stem[|stem| - k..];
    var before := head[..|head| - |PagePrefix|];
    TrailingRunIsDigits(stem);
    SplitAt(name, |name| - |JsonExtension|);
    SplitAt(stem, |stem| - k);
    SplitAt(head, |head| - |PagePrefix|);
    assert name == before + PagePrefix + digits + JsonExtension;
  }

  /** The program's own file names are recognised with their page number;
      file names of negative page numbers are not. */
  lemma MatchPageFileName(n: int)
    ensures n >= 0 ==> MatchPageSuffix(PageFileName(n)) == Some(n)
    ensures n < 0 ==> MatchPageSuffix(PageFileName(n)) == None
  {
    if n >= 0 {
      OwnFileNameMatches(n);
    } else {
      NegativeFileNameIgnored(n);
    }
  }

  lemma OwnFileNameMatches(n: nat)
    ensures MatchPageSuffix(PageFileName(n)) == Some(n)
  {
    assert EndsWith(PagePrefix, PagePrefix);
    NatToStringShape(n);
    MatchAfterPrefix(PagePrefix, NatToString(n));
    ParseNatToString(n);
  }

  lemma NegativeFileNameIgnored(n: int)
    requires n < 0
    ensures MatchPageSuffix(PageFileName(n)) == None
  {
    var digits := NatToString(-n);
    NatToStringShape(-n);
    var front := PagePrefix + "-";
    var stem := front + digits;
    assert PageFileName(n) == stem + JsonExtension;
    EndsWithAppend(stem, JsonExtension);
    EndsWithAppend(front, digits);
    TrailingDigitsAfter(front, digits);
    // What precedes the digits ends in `_-`, not in `page_`.
    assert front[|front| - |PagePrefix|..][|PagePrefix| - 1] != PagePrefix[|PagePrefix| - 1];
  }

  /** The resume point: the largest page number the entries of the listing
      yield, or 0 when none matches. Entries that do not match are ignored. */
  function ResumePoint(names: seq<string>): nat {
    if |names| == 0 then 0
    else
      var rest := ResumePoint(names[..|names| - 1]);
      match MatchPageSuffix(names[|names| - 1])
      case Some(n) => if n > rest then n else rest
      case None => rest
  }

  /** The resume point bounds every page number the listing yields and is
      itself yielded by some entry, unless it is 0. */
  lemma {:induction false} ResumePointIsGreatestMatch(names: seq<string>)
    ensures forall i :: 0 <= i < |names| && MatchPageSuffix(names[i]).Some? ==>
              MatchPageSuffix(names[i]).value <= ResumePoint(names)
    ensures ResumePoint(names) == 0 ||
            exists i :: 0 <= i < |names| && MatchPageSuffix(names[i]) == Some(ResumePoint(names))
    decreases |names|
  {
    if |names| > 0 {
      var init := names[..|names| - 1];
      ResumePointIsGreatestMatch(init);
      assert forall i :: 0 <= i < |init| ==> init[i] == names[i];
    }
  }

  /** Listing one more entry raises the resume point to that entry's page
      number if it matches and is larger; otherwise it changes nothing. */
  lemma ResumePointSnoc(names: seq<string>, name: string)
    ensures MatchPageSuffix(name).None? ==> ResumePoint(names + [name]) == ResumePoint(names)
    ensures MatchPageSuffix(name).Some? ==>
              ResumePoint(names + [name]) ==
              if MatchPageSuffix(name).value > ResumePoint(names) then MatchPageSuffix(name).value
              else ResumePoint(names)
  {
    var s := names + [name];
    assert s[..|s| - 1] == names;
  }

  /** Writing the file of a page at or beyond the resume point makes that
      page the resume point. */
  lemma WritingPageRaisesResumePoint(names: seq<string>, n: nat)
    requires ResumePoint(names) <= n
    ensures ResumePoint(names + [PageFileName(n)]) == n
  {
    MatchPageFileName(n);
    ResumePointSnoc(names, PageFileName(n));
  }

  /** Resume discovery accepts a zero-padded number, which the skip rule and
      the combine step never look up. */
  lemma ZeroPaddedNameMatches()
    ensures MatchPageSuffix("page_007.json") == Some(7)
    ensures PageFileName(7) != "page_007.json"
  {
    assert EndsWith(PagePrefix, PagePrefix);
    MatchAfterPrefix(PagePrefix, "007");
    assert "page_007.json" == PagePrefix + "007" + JsonExtension;
    assert ParseDigits("007") == 7 by {
      assert "007" == "0" + "07";
      ParseLeadingZero("07");
      assert "07" == "0" + "7";
      ParseLeadingZero("7");
      assert ParseDigits("7") == 7;
    }
    assert |IntToString(7)| == 1;
  }

  /** Resume discovery accepts any prefix before `page_`. */
  lemma PrefixedNameMatches()
    ensures MatchPageSuffix("old_page_7.json") == Some(7)
    ensures PageFileName(7) != "old_page_7.json"
  {
    assert "old_page_"[4..] == PagePrefix;
    MatchAfterPrefix("old_page_", "7");
    assert "old_page_7.json" == "old_page_" + "7" + JsonExtension;
    assert ParseDigits("7") == 7;
    assert |IntToString(7)| == 1;
  }

  /** Names without digits, or not ending in `.json`, are ignored. */
  lemma MalformedNamesIgnored()
    ensures MatchPageSuffix("page_.json") == None
    ensures MatchPageSuffix("page_7.json.bak") == None
  {
    var stem := "page_";
    assert "page_.json"[..|"page_.json"| - |JsonExtension|] == stem;
    assert TrailingDigits(stem) == 0;
    assert "page_7.json.bak"[|"page_7.json.bak"| - 1] != JsonExtension[|JsonExtension| - 1];
  }
}

=== FILE: page_range.dfy ===
/** Resolution and validation of the 0-based page index range a run visits
    (pdf-aiparser.js, lines 20-27 and 68-87). */
module PageRange {
  import opened Outcomes

  /** `Number.MAX_SAFE_INTEGER`, the default end page. */
  const MaxSafeInteger: int := 9007199254740991
  const DefaultStartPage: int := 1
  const DefaultEndPage: int := MaxSafeInteger

  /** The caller's raw options object; an absent property is None. */
  datatype Options = Options(startPage: Option<int>, endPage: Option<int>)

  /** `processPDF(path)` with the options argument omitted: `{}`. */
  const NoOptions: Options := Options(None, None)

  /** `{ ...defaultOptions, ...options }`: a given property overrides its
      default. */
  function ConfiguredStart(options: Options): int {
    options.startPage.GetOr(DefaultStartPage)
  }

  function ConfiguredEnd(options: Options): int {
    options.endPage.GetOr(DefaultEndPage)
  }

  /** The explicit-range test, made on the raw options (not on the merged
      configuration): either property not strictly equal to its default.
      An absent property is `undefined`, which differs from every default. */
  predicate IsExplicit(options: Options) {
    options.startPage != Some(DefaultStartPage) || options.endPage != Some(DefaultEndPage)
  }

  /** 0-based inclusive index range; page numbers are indices plus one. */
  datatype Range = Range(start: int, end: int)

  /** The run's fatal range error, carrying the 1-based pages it reports. */
  datatype RangeError = InvalidRange(startPage: int, endPage: int)

  function Min(a: int, b: int): int {
    if a <= b then a else b
  }

  function Max(a: int, b: int): int {
    if a >= b then a else b
  }

  /** The range before validation. An explicit run starts at the configured
      start page with no lower clamp; otherwise the run starts at the later
      of the resume point and the configured start. Both end at the earlier
      of the last page and the configured end. */
  function Bounds(options: Options, pageCount: nat, last: nat): (r: Range)
    ensures r.end <= pageCount - 1 && r.end <= ConfiguredEnd(options) - 1
    ensures r.end == pageCount - 1 || r.end == ConfiguredEnd(options) - 1
    ensures IsExplicit(options) ==> r.start == ConfiguredStart(options) - 1
    ensures !IsExplicit(options) ==> r.start == last
  {
    var end := Min(pageCount - 1, ConfiguredEnd(options) - 1);
    if IsExplicit(options) then Range(ConfiguredStart(options) - 1, end)
    else Range(Max(last, ConfiguredStart(options) - 1), end)
  }

  /** The validated range: a range whose start lies after its end is the
      run's fatal error, reported with 1-based page numbers. */
  function ResolveRange(options: Options, pageCount: nat, last: nat): (r: Result<Range, RangeError>)
    ensures r.Ok? <==> Bounds(options, pageCount, last).start <= Bounds(options, pageCount, last).end
    ensures r.Ok? ==> r.value == Bounds(options, pageCount, last)
    ensures r.Err? ==> r.error == InvalidRange(Bounds(options, pageCount, last).start + 1, Bounds(options, pageCount, last).end + 1)
    ensures r.Err? ==> r.error.startPage > r.error.endPage
  {
    var b := Bounds(options, pageCount, last);
    if b.start > b.end then Err(InvalidRange(b.start + 1, b.end + 1)) else Ok(b)
  }

  // ---------------------------------------------------------------------
  // Properties

  /** Omitting the options, or giving only one of the two properties,
      counts as an explicit range. */
  lemma AbsentOptionsAreExplicit(start: int, end: int)
    ensures IsExplicit(NoOptions)
    ensures IsExplicit(Options(Some(start), None))
    ensures IsExplicit(Options(None, Some(end)))
  {
  }

  /** With the options omitted, a document of at most `MAX_SAFE_INTEGER`
      pages is covered whole, whatever the resume point. */
  lemma NoOptionsCoverDocument(pageCount: nat, last: nat)
    requires 1 <= pageCount <= MaxSafeInteger
    ensures ResolveRange(NoOptions, pageCount, last) == Ok(Range(0, pageCount - 1))
  {
  }

  /** With the default options and nothing processed yet, a document of at
      most `MAX_SAFE_INTEGER` pages is covered whole. */
  lemma DefaultOptionsCoverFreshDocument(options: Options, pageCount: nat)
    requires !IsExplicit(options)
    requires 1 <= pageCount <= MaxSafeInteger
    ensures ResolveRange(options, pageCount, 0) == Ok(Range(0, pageCount - 1))
  {
    ResumeModeRange(options, pageCount, 0);
  }

  /** A run that is not explicit has exactly the default configuration, so
      it resumes at the resume point and ends at the last page. */
  lemma ResumeModeRange(options: Options, pageCount: nat, last: nat)
    requires !IsExplicit(options)
    requires pageCount <= MaxSafeInteger
    ensures Bounds(options, pageCount, last) == Range(last, pageCount - 1)
  {
  }

  /** A run that is not explicit fails the range check exactly when every
      page is at or below the resume point; in particular re-running a
      fully processed document fails. */
  lemma ResumeModeFailsWhenDone(options: Options, pageCount: nat, last: nat)
    requires !IsExplicit(options)
    requires pageCount <= MaxSafeInteger
    ensures ResolveRange(options, pageCount, last).Err? <==> last >= pageCount
    ensures last >= pageCount ==>
              ResolveRange(options, pageCount, last) == Err(InvalidRange(last + 1, pageCount))
  {
    ResumeModeRange(options, pageCount, last);
  }

  /** An explicit start page below 1 is not clamped: the range begins at a
      negative index. */
  lemma ExplicitStartNotClamped(startPage: int, endPage: int, pageCount: nat, last: nat)
    requires startPage < 1
    ensures Bounds(Options(Some(startPage), Some(endPage)), pageCount, last).start == startPage - 1 < 0
  {
  }

  /** Pages 5 to 3 are rejected on any document, whatever the resume point. */
  lemma ReversedRangeRejected(pageCount: nat, last: nat)
    ensures ResolveRange(Options(Some(5), Some(3)), pageCount, last).Err?
  {
  }

  /** Changing only the end page leaves the start at the configured first
      page, below any resume point: the resume point is ignored. */
  lemma EndOnlyIgnoresResumePoint(endPage: int, pageCount: nat, last: nat)
    requires endPage != DefaultEndPage
    ensures Bounds(Options(Some(DefaultStartPage), Some(endPage)), pageCount, last).start == 0
  {
  }
}

=== FILE: page_store.dfy ===
/** The record directory of one document: per-page records stored under
    `page_N.json`, their lookup, overwrite and the combined projection
    (pdf-aiparser.js, lines 44-54, 109-111, 224-232 and 246-256). */
module PageStore {
  import opened Outcomes
  import opened Decimal
  import opened PageFiles

  /** One page's record: `{ pageNumber, text, imageDescription }`. */
  datatype PageResult = PageResult(pageNumber: int, text: string, imageDescription: string)

  /** The record directory: `names` is what listing the directory returns,
      `files` what each entry holds. */
  datatype JsonDir = JsonDir(names: seq<string>, files: map<string, PageResult>)

  /** The listing names exactly the directory's entries. */
  ghost predicate Listed(dir: JsonDir) {
    forall name :: name in dir.files <==> name in dir.names
  }

  /** `fs.existsSync(path.join(jsonDir, `page_${n}.json`))`. */
  predicate Has(dir: JsonDir, pageNumber: int) {
    PageFileName(pageNumber) in dir.files
  }

  /** The record stored for a page, if its file exists. */
  function Lookup(dir: JsonDir, pageNumber: int): Option<PageResult> {
    if Has(dir, pageNumber) then Some(dir.files[PageFileName(pageNumber)]) else None
  }

  /** Every page file holds the record of the page it is named after. */
  ghost predicate WellFormed(dir: JsonDir) {
    forall n :: Has(dir, n) ==> dir.files[PageFileName(n)].pageNumber == n
  }

  /** Distinct pages have distinct files. */
  lemma PageFileNameInjective(a: int, b: int)
    ensures PageFileName(a) == PageFileName(b) ==> a == b
  {
    if PageFileName(a) == PageFileName(b) {
      var sa := IntToString(a);
      var sb := IntToString(b);
      IntToStringShape(a);
      IntToStringShape(b);
      assert PageFileName(a)[|PagePrefix|..|PagePrefix| + |sa|] == sa;
      assert PageFileName(b)[|PagePrefix|..|PagePrefix| + |sb|] == sb;
      IntToStringInjective(a, b);
    }
  }

  /** `fs.writeFileSync(jsonPath, JSON.stringify(pageResult))`: creates or
      overwrites the file of the given page and nothing else. */
  function Save(dir: JsonDir, pageNumber: int, rec: PageResult): (r: JsonDir)
    ensures Lookup(r, pageNumber) == Some(rec)
    ensures forall n :: n != pageNumber ==> Lookup(r, n) == Lookup(dir, n)
    ensures forall x :: x != PageFileName(pageNumber) ==>
              (x in r.files <==> x in dir.files) && (x in dir.files ==> r.files[x] == dir.files[x])
    ensures forall x :: x in r.names <==> x in dir.names || x == PageFileName(pageNumber)
    ensures dir.names <= r.names
    ensures Listed(dir) ==> Listed(r)
    ensures WellFormed(dir) && rec.pageNumber == pageNumber ==> WellFormed(r)
  {
    var name := PageFileName(pageNumber);
    var r := JsonDir(if name in dir.names then dir.names else dir.names + [name], dir.files[name := rec]);
    forall n | n != pageNumber
      ensures Lookup(r, n) == Lookup(dir, n)
    {
      PageFileNameInjective(n, pageNumber);
    }
    assert WellFormed(dir) && rec.pageNumber == pageNumber ==> WellFormed(r) by {
      if WellFormed(dir) && rec.pageNumber == pageNumber {
        forall n | Has(r, n)
          ensures r.files[PageFileName(n)].pageNumber == n
        {
          PageFileNameInjective(n, pageNumber);
        }
      }
    }
    r
  }

  /** The pages among 1..count that have a record, in ascending order. */
  function PresentPages(dir: JsonDir, count: int): seq<int>
    decreases count
  {
    if count < 1 then []
    else PresentPages(dir, count - 1) + (if Has(dir, count) then [count] else [])
  }

  /** The present pages are exactly the pages of 1..count that have a
      record, each once, in strictly ascending order. */
  lemma {:induction false} PresentPagesExactly(dir: JsonDir, count: int)
    ensures forall k :: 0 <= k < |PresentPages(dir, count)| ==>
              1 <= PresentPages(dir, count)[k] <= count && Has(dir, PresentPages(dir, count)[k])
    ensures forall n :: 1 <= n <= count && Has(dir, n) ==> n in PresentPages(dir, count)
    ensures forall j, k :: 0 <= j < k < |PresentPages(dir, count)| ==>
              PresentPages(dir, count)[j] < PresentPages(dir, count)[k]
    decreases count
  {
    if count >= 1 {
      var prev := PresentPages(dir, count - 1);
      PresentPagesExactly(dir, count - 1);
      assert PresentPages(dir, count) == prev + (if Has(dir, count) then [count] else []);
    }
  }

  /** The combine step: the stored records of pages 1..pageCount, in page
      order, missing pages left out. */
  function Combine(dir: JsonDir, pageCount: int): seq<PageResult>
    decreases pageCount
  {
    if pageCount < 1 then []
    else Combine(dir, pageCount - 1) + (if Has(dir, pageCount) then [dir.files[PageFileName(pageCount)]] else [])
  }

  /** The combined result holds, position by position, the stored record of
      each page present in 1..pageCount. */
  lemma {:induction false} CombineMatchesPresentPages(dir: JsonDir, pageCount: int)
    ensures |Combine(dir, pageCount)| == |PresentPages(dir, pageCount)|
    ensures forall k :: 0 <= k < |Combine(dir, pageCount)| ==>
              Lookup(dir, PresentPages(dir, pageCount)[k]) == Some(Combine(dir, pageCount)[k])
    decreases pageCount
  {
    if pageCount >= 1 {
      CombineMatchesPresentPages(dir, pageCount - 1);
    }
  }

  /** The page numbers of a sequence of records. */
  function PageNumbers(rs: seq<PageResult>): (ns: seq<int>)
    ensures |ns| == |rs|
    ensures forall k :: 0 <= k < |rs| ==> ns[k] == rs[k].pageNumber
  {
    if |rs| == 0 then [] else [rs[0].pageNumber] + PageNumbers(rs[1..])
  }

  /** On a well-formed directory the combined result lists every stored page
      of 1..pageCount exactly once, in strictly ascending page order, and
      nothing else: pages beyond pageCount are omitted. */
  lemma CombineOrdered(dir: JsonDir, pageCount: int)
    requires WellFormed(dir)
    ensures PageNumbers(Combine(dir, pageCount)) == PresentPages(dir, pageCount)
    ensures forall j, k :: 0 <= j < k < |Combine(dir, pageCount)| ==>
              Combine(dir, pageCount)[j].pageNumber < Combine(dir, pageCount)[k].pageNumber
    ensures forall n :: 1 <= n <= pageCount && Has(dir, n) <==> n in PageNumbers(Combine(dir, pageCount))
  {
    var r := Combine(dir, pageCount);
    var ps := PresentPages(dir, pageCount);
    CombineMatchesPresentPages(dir, pageCount);
    PresentPagesExactly(dir, pageCount);
    forall k | 0 <= k < |r|
      ensures r[k].pageNumber == ps[k]
    {
      assert Lookup(dir, ps[k]) == Some(r[k]);
    }
  }

  /** The combined result depends only on the records of pages 1..pageCount:
      two directories that agree there combine identically. */
  lemma {:induction false} CombineDependsOnlyOnPages(d1: JsonDir, d2: JsonDir, pageCount: int)
    requires forall n :: 1 <= n <= pageCount ==> Lookup(d1, n) == Lookup(d2, n)
    ensures Combine(d1, pageCount) == Combine(d2, pageCount)
    decreases pageCount
  {
    if pageCount >= 1 {
      CombineDependsOnlyOnPages(d1, d2, pageCount - 1);
      assert Lookup(d1, pageCount) == Lookup(d2, pageCount);
    }
  }

  /** Every page file of a non-negative page lies at or below the resume
      point, so pages beyond it have no record for the skip rule or the
      combine step to see. */
  lemma PagesWithinResumePoint(dir: JsonDir, n: int)
    requires Listed(dir)
    ensures Has(dir, n) && n >= 0 ==> n <= ResumePoint(dir.names)
  {
    if Has(dir, n) && n >= 0 {
      var i :| 0 <= i < |dir.names| && dir.names[i] == PageFileName(n);
      MatchPageFileName(n);
      ResumePointIsGreatestMatch(dir.names);
    }
  }

  /** Saving the record of a page at or past the resume point makes that
      page the resume point, whether or not its file was already listed. */
  lemma SaveRaisesResumePoint(dir: JsonDir, n: nat, rec: PageResult)
    requires ResumePoint(dir.names) <= n
    ensures ResumePoint(Save(dir, n, rec).names) == n
  {
    if PageFileName(n) in dir.names {
      var i :| 0 <= i < |dir.names| && dir.names[i] == PageFileName(n);
      MatchPageFileName(n);
      ResumePointIsGreatestMatch(dir.names);
    } else {
      WritingPageRaisesResumePoint(dir.names, n);
    }
  }

  /** A directory whose entries are exactly the records of pages 1..k, in
      whatever order the listing gives them, resumes at k. */
  lemma ResumePointOfPages(dir: JsonDir, k: nat)
    requires Listed(dir)
    requires forall n :: 1 <= n <= k ==> Has(dir, n)
    requires forall x :: x in dir.names ==> exists n :: 1 <= n <= k && x == PageFileName(n)
    ensures ResumePoint(dir.names) == k
  {
    ResumePointIsGreatestMatch(dir.names);
    if k > 0 {
      assert Has(dir, k);
      var i :| 0 <= i < |dir.names| && dir.names[i] == PageFileName(k);
      MatchPageFileName(k);
    }
    if ResumePoint(dir.names) > 0 {
      var i :| 0 <= i < |dir.names| && MatchPageSuffix(dir.names[i]) == Some(ResumePoint(dir.names));
      assert dir.names[i] in dir.names;
      var n :| 1 <= n <= k && dir.names[i] == PageFileName(n);
      MatchPageFileName(n);
    }
  }

  /** The listing of a directory holding exactly the records of pages 1..k. */
  function FirstPagesListing(k: nat): seq<string> {
    if k == 0 then [] else FirstPagesListing(k - 1) + [PageFileName(k)]
  }

  /** After pages 1..k were written, the resume point is k. */
  lemma {:induction false} ResumePointOfFirstPages(k: nat)
    ensures ResumePoint(FirstPagesListing(k)) == k
  {
    if k > 0 {
      ResumePointOfFirstPages(k - 1);
      WritingPageRaisesResumePoint(FirstPagesListing(k - 1), k);
    }
  }
}

=== FILE: pdf_run.dfy ===
/** `processPDF` with each page's outcome given by its `try` block
    (pdf-aiparser.js, lines 116-243): what an attempted page leaves behind,
    in terms of that page's collaborators. */
module PdfRun {
  import opened Outcomes
  import opened PageFiles
  import opened TextExtraction
  import opened Describer
  import opened PageRange
  import opened PageStore
  import opened Pipeline
  import opened PipelineProperties

  /** The outcomes a run of `processPDF` sees. */
  function InputsOf(env: Env): (inputs: RunInputs)
    ensures inputs.document == env.document && inputs.combinedWrite == env.combinedWrite
    ensures forall n :: inputs.outcomes(n) == ProcessPage(n, env.pages(n))
  {
    RunInputs(env.document, PageOutcomes(env.pages), env.combinedWrite)
  }

  /** An attempted page ends with the record the loop's rules give it. */
  lemma AttemptedPageStore(disk: Disk, options: Options, env: Env, n: int)
    requires env.document.Loaded?
    requires ResolveRange(options, env.document.pageCount, ResumePoint(disk.json.names)).Ok?
    requires n in ProcessPdf(disk, options, env).processed
    ensures Lookup(ProcessPdf(disk, options, env).disk.json, n) ==
            match ProcessPage(n, env.pages(n))
            case Ok(rec) => Some(rec)
            case Err(_) => Lookup(disk.json, n)
  {
    var inputs := InputsOf(env);
    assert ProcessPdf(disk, options, env) == Orchestrate(disk, options, inputs);
    var range := ResolveRange(options, env.document.pageCount, ResumePoint(disk.json.names)).value;
    var explicit := IsExplicit(options);
    RunProcessedIsLoop(disk, options, inputs, range);
    RunStoreIsLoop(disk, options, inputs, range);
    RunPagesProcessed(range.start, range.end, explicit, disk, inputs.outcomes, n);
    RunPagesStore(range.start, range.end, explicit, disk, inputs.outcomes, n);
  }

  /** An attempted page whose image is rendered and whose record is written
      ends holding a record of its own page, with the text of the extraction
      tiers and the retry loop's description: the endpoint's first response
      within three attempts, or the exhaustion sentinel when all three
      fail. */
  lemma AttemptedPageRecord(disk: Disk, options: Options, env: Env, n: int)
    requires env.document.Loaded?
    requires ResolveRange(options, env.document.pageCount, ResumePoint(disk.json.names)).Ok?
    requires n in ProcessPdf(disk, options, env).processed
    requires env.pages(n).render.Ok? && env.pages(n).recordWrite.None?
    ensures var rec := Lookup(ProcessPdf(disk, options, env).disk.json, n);
            && rec.Some?
            && rec.value.pageNumber == n
            && rec.value.text == ExtractText(n, env.pages(n).singlePage, env.pages(n).wholeDocument)
            && rec.value.imageDescription == Describe(Buffer(env.pages(n).render.value), env.pages(n).transport).description
            && (rec.value.imageDescription == ExhaustedSentinel() ||
                exists k :: 1 <= k <= MaxRetries && env.pages(n).transport(k) == Responded(rec.value.imageDescription))
  {
    AttemptedPageStore(disk, options, env, n);
    ProcessedRecordContents(n, env.pages(n));
  }

  /** When the endpoint first answers on attempt k, an attempted page that
      renders and is written stores that answer as its description. */
  lemma AttemptedPageFirstResponse(disk: Disk, options: Options, env: Env, n: int, k: nat)
    requires env.document.Loaded?
    requires ResolveRange(options, env.document.pageCount, ResumePoint(disk.json.names)).Ok?
    requires n in ProcessPdf(disk, options, env).processed
    requires env.pages(n).render.Ok? && env.pages(n).recordWrite.None?
    requires 1 <= k <= MaxRetries && env.pages(n).transport(k).Responded?
    requires forall j :: 1 <= j < k ==> env.pages(n).transport(j).Failed?
    ensures Lookup(ProcessPdf(disk, options, env).disk.json, n).Some?
    ensures Lookup(ProcessPdf(disk, options, env).disk.json, n).value.imageDescription ==
            env.pages(n).transport(k).response
  {
    var image := Buffer(env.pages(n).render.value);
    AttemptedPageRecord(disk, options, env, n);
    FirstSuccessIsReturned(image, env.pages(n).transport, k);
  }

  /** When all three attempts fail, an attempted page that renders and is
      written stores the exhaustion sentinel as its description. */
  lemma AttemptedPageExhausted(disk: Disk, options: Options, env: Env, n: int)
    requires env.document.Loaded?
    requires ResolveRange(options, env.document.pageCount, ResumePoint(disk.json.names)).Ok?
    requires n in ProcessPdf(disk, options, env).processed
    requires env.pages(n).render.Ok? && env.pages(n).recordWrite.None?
    requires forall j :: 1 <= j <= MaxRetries ==> env.pages(n).transport(j).Failed?
    ensures Lookup(ProcessPdf(disk, options, env).disk.json, n).Some?
    ensures Lookup(ProcessPdf(disk, options, env).disk.json, n).value.imageDescription ==
            "[Failed to get image description after 3 attempts]"
  {
    var image := Buffer(env.pages(n).render.value);
    AttemptedPageRecord(disk, options, env, n);
    ExhaustionGivesSentinel(image, env.pages(n).transport);
    ExhaustedSentinelText();
  }

  /** An attempted page whose rendering or record write throws keeps the
      record it had, and the error log gains an entry naming the page with
      the message of the error that was thrown: the rendering error when
      rendering fails, the write error otherwise. */
  lemma AttemptedPageFailure(disk: Disk, options: Options, env: Env, n: int)
    requires env.document.Loaded?
    requires ResolveRange(options, env.document.pageCount, ResumePoint(disk.json.names)).Ok?
    requires n in ProcessPdf(disk, options, env).processed
    requires env.pages(n).render.Err? || env.pages(n).recordWrite.Some?
    ensures var r := ProcessPdf(disk, options, env);
            && Lookup(r.disk.json, n) == Lookup(disk.json, n)
            && ErrorEntry(n, if env.pages(n).render.Err? then env.pages(n).render.error
                             else env.pages(n).recordWrite.value) in r.disk.errorLog
  {
    var inputs := InputsOf(env);
    assert ProcessPdf(disk, options, env) == Orchestrate(disk, options, inputs);
    PageFailureIsolated(disk, options, inputs, n);
  }

  /** A page whose single-page tier yields text, whose image renders and is
      answered on the first attempt, and whose record is written, succeeds
      with that text and that answer. */
  lemma ImmediateAnswerOutcome(pageNumber: int, world: PageWorld)
    requires world.singlePage.Some? && world.render.Ok? && world.recordWrite.None?
    requires world.transport(1).Responded?
    ensures ProcessPage(pageNumber, world) ==
            Ok(PageResult(pageNumber, world.singlePage.value, world.transport(1).response))
  {
    FirstSuccessIsReturned(Buffer(world.render.value), world.transport, 1);
  }

  /** A three-page document on an empty directory with default options,
      where every page's single-page tier yields text, rendering and the
      record write succeed and the endpoint answers at once: the run returns
      pages 1, 2 and 3 in order, each with its own text and the endpoint's
      description. */
  lemma ThreePageDocument(disk: Disk, options: Options, env: Env)
    requires disk.json == JsonDir([], map[])
    requires options == Options(Some(DefaultStartPage), Some(DefaultEndPage))
    requires env.document == Loaded(3) && env.combinedWrite.None?
    requires forall n :: 1 <= n <= 3 ==>
               && env.pages(n).singlePage.Some?
               && env.pages(n).render.Ok? && env.pages(n).recordWrite.None?
               && env.pages(n).transport(1).Responded?
    ensures ProcessPdf(disk, options, env).result.Ok?
    ensures |ProcessPdf(disk, options, env).result.value| == 3
    ensures forall k :: 0 <= k < 3 ==>
              ProcessPdf(disk, options, env).result.value[k] ==
              PageResult(k + 1, env.pages(k + 1).singlePage.value, env.pages(k + 1).transport(1).response)
  {
    var inputs := InputsOf(env);
    assert ProcessPdf(disk, options, env) == Orchestrate(disk, options, inputs);
    ImmediateAnswerOutcome(1, env.pages(1));
    ImmediateAnswerOutcome(2, env.pages(2));
    ImmediateAnswerOutcome(3, env.pages(3));
    ThreePageScenario(disk, options, inputs);
  }
}

=== FILE: pipeline.dfy ===
/** The page-orchestration of `processPDF` (pdf-aiparser.js, lines 16-269):
    resume discovery, range resolution, the per-page loop with its skip
    rule and failure isolation, and the combine step. The filesystem is the
    record directory plus an append-only error log; every collaborator's
    behaviour is an input. */
module Pipeline {
  import opened Outcomes
  import opened PageFiles
  import opened TextExtraction
  import opened Describer
  import opened PageRange
  import opened PageStore

  /** What the collaborators do for one page. */
  datatype PageWorld = PageWorld(
    singlePage: Option<string>,     // the single-page extraction tier's text, or None when it throws
    wholeDocument: Option<string>,  // the whole-document parse for the fallback tier, or None when it throws
    render: Result<seq<bv8>, string>, // the rendered PNG read back, or the error rendering or reading throws
    transport: nat -> Transport,    // the endpoint's outcome on each attempt, from 1
    recordWrite: Option<string>     // the error writing the record file throws, if any
  )

  /** The loaded document, or the error loading it throws. */
  datatype Document = Loaded(pageCount: nat) | Unloadable(message: string)

  /** Everything outside the core for one run. */
  datatype Env = Env(document: Document, pages: int -> PageWorld, combinedWrite: Option<string>)

  /** One entry of `error_log.txt`: the page and the error's message. */
  datatype ErrorEntry = ErrorEntry(pageNumber: int, message: string)

  /** The document's output directory. */
  datatype Disk = Disk(json: JsonDir, errorLog: seq<ErrorEntry>, combinedFile: Option<seq<PageResult>>)

  /** Errors that abort the run. */
  datatype Fatal = LoadFailed(message: string) | RangeFailed(error: RangeError) | CombineWriteFailed(message: string)

  /** The disk after the run, the pages whose processing was attempted (not
      skipped), and what the run returns or throws. */
  datatype RunOutcome = RunOutcome(disk: Disk, processed: seq<int>, result: Result<seq<PageResult>, Fatal>)

  /** The body of the per-page `try` block: extract the text (never fails),
      render and read the image (may throw), describe it with retries (never
      fails), build the record and write it (may throw). A thrown error
      becomes `Err` with its message. */
  function ProcessPage(pageNumber: int, world: PageWorld): (r: Result<PageResult, string>)
    ensures r.Ok? <==> world.render.Ok? && world.recordWrite.None?
    ensures world.render.Err? ==> r == Err(world.render.error)
    ensures world.render.Ok? && world.recordWrite.Some? ==> r == Err(world.recordWrite.value)
    ensures r.Ok? ==> r.value.pageNumber == pageNumber
  {
    var text := ExtractText(pageNumber, world.singlePage, world.wholeDocument);
    match world.render
    case Err(message) => Err(message)
    case Ok(bytes) =>
      var described := Describe(Buffer(bytes), world.transport);
      var rec := PageResult(pageNumber, text, described.description);
      match world.recordWrite
      case Some(message) => Err(message)
      case None => Ok(rec)
  }

  /** The record of a successfully processed page: its text comes from the
      extraction tiers; its description is the first response the endpoint
      gave within three attempts, or the exhaustion sentinel when all three
      attempts failed. */
  lemma ProcessedRecordContents(pageNumber: int, world: PageWorld)
    requires ProcessPage(pageNumber, world).Ok?
    ensures ProcessPage(pageNumber, world).value.text ==
            ExtractText(pageNumber, world.singlePage, world.wholeDocument)
    ensures ProcessPage(pageNumber, world).value.imageDescription ==
            Describe(Buffer(world.render.value), world.transport).description
    ensures var d := ProcessPage(pageNumber, world).value.imageDescription;
            d == ExhaustedSentinel() ||
            exists k :: 1 <= k <= MaxRetries && world.transport(k) == Responded(d)
  {
    var described := Describe(Buffer(world.render.value), world.transport);
    if described.description != ExhaustedSentinel() {
      assert world.transport(described.calls) == Responded(described.description);
    }
  }

  /** What processing each page yields: `ProcessPage` over that page's
      collaborators. A page's outcome does not depend on the loop's state. */
  function PageOutcomes(pages: int -> PageWorld): (outcomes: int -> Result<PageResult, string>)
    ensures forall n :: outcomes(n) == ProcessPage(n, pages(n))
  {
    n => ProcessPage(n, pages(n))
  }

  /** The error-log entry a page's outcome contributes: one entry naming the
      page when it fails, none when it succeeds. */
  function FailureEntry(pageNumber: int, outcome: Result<PageResult, string>): (e: seq<ErrorEntry>)
    ensures |e| <= 1
    ensures |e| == 1 <==> outcome.Err?
    ensures |e| == 1 ==> e[0] == ErrorEntry(pageNumber, outcome.error)
  {
    match outcome
    case Err(message) => [ErrorEntry(pageNumber, message)]
    case Ok(_) => []
  }

  /** One visited page: on success its record is saved under the page's
      file; on failure an entry naming the page is appended to the error log
      and the record directory is left as it was. */
  function Visit(pageNumber: int, disk: Disk, outcome: Result<PageResult, string>): (d: Disk)
    ensures d.combinedFile == disk.combinedFile
    ensures forall n :: n != pageNumber ==> Lookup(d.json, n) == Lookup(disk.json, n)
    ensures outcome.Ok? ==> Lookup(d.json, pageNumber) == Some(outcome.value)
    ensures outcome.Err? ==> d.json == disk.json
    ensures d.errorLog == disk.errorLog + FailureEntry(pageNumber, outcome)
    ensures Listed(disk.json) ==> Listed(d.json)
    ensures WellFormed(disk.json) && (outcome.Ok? ==> outcome.value.pageNumber == pageNumber) ==>
              WellFormed(d.json)
  {
    match outcome
    case Ok(rec) => disk.(json := Save(disk.json, pageNumber, rec))
    case Err(message) => disk.(errorLog := disk.errorLog + [ErrorEntry(pageNumber, message)])
  }

  /** The state of the loop once it has finished. */
  datatype LoopResult = LoopResult(disk: Disk, processed: seq<int>)

  /** The skip rule: a page is skipped when its record exists and the run is
      not explicit. */
  predicate Skips(explicit: bool, dir: JsonDir, pageNumber: int) {
    !explicit && Has(dir, pageNumber)
  }

  /** `for (let i = start; i <= end; i++)`: visits indices start..end in
      ascending order, page number index+1, skipping as the skip rule says
      and continuing past every page failure. */
  function RunPages(start: int, end: int, explicit: bool, disk: Disk, outcomes: int -> Result<PageResult, string>): (r: LoopResult)
    ensures r.disk.combinedFile == disk.combinedFile
    decreases end + 1 - start
  {
    if start > end then LoopResult(disk, [])
    else
      var pageNumber := start + 1;
      if Skips(explicit, disk.json, pageNumber) then RunPages(start + 1, end, explicit, disk, outcomes)
      else
        var rest := RunPages(start + 1, end, explicit, Visit(pageNumber, disk, outcomes(pageNumber)), outcomes);
        LoopResult(rest.disk, [pageNumber] + rest.processed)
  }

  /** What a run sees of the outside world once each page's `try` block is
      reduced to its outcome. */
  datatype RunInputs = RunInputs(document: Document, outcomes: int -> Result<PageResult, string>, combinedWrite: Option<string>)

  /** The body of `processPDF` over given per-page outcomes: discovers the
      resume point, loads the document, resolves and validates the range,
      runs the loop, then combines and saves the records of pages
      1..pageCount and returns them. */
  function Orchestrate(disk: Disk, options: Options, inputs: RunInputs): (r: RunOutcome)
    ensures r.result.Ok? <==>
              && inputs.document.Loaded?
              && ResolveRange(options, inputs.document.pageCount, ResumePoint(disk.json.names)).Ok?
              && inputs.combinedWrite.None?
    ensures inputs.document.Unloadable? ==> r.result == Err(LoadFailed(inputs.document.message))
    ensures inputs.document.Loaded? && ResolveRange(options, inputs.document.pageCount, ResumePoint(disk.json.names)).Err? ==>
              r.result == Err(RangeFailed(ResolveRange(options, inputs.document.pageCount, ResumePoint(disk.json.names)).error))
    ensures inputs.document.Loaded? && ResolveRange(options, inputs.document.pageCount, ResumePoint(disk.json.names)).Ok? &&
            inputs.combinedWrite.Some? ==>
              r.result == Err(CombineWriteFailed(inputs.combinedWrite.value))
    ensures r.result.Err? && !r.result.error.CombineWriteFailed? ==> r.disk == disk && r.processed == []
    ensures r.result.Ok? ==>
              (inputs.document.Loaded? &&
               r.result.value == Combine(r.disk.json, inputs.document.pageCount) &&
               r.disk.combinedFile == Some(r.result.value))
    ensures r.result.Err? ==> r.disk.combinedFile == disk.combinedFile
  {
    var last := ResumePoint(disk.json.names);
    match inputs.document
    case Unloadable(message) => RunOutcome(disk, [], Err(LoadFailed(message)))
    case Loaded(pageCount) =>
      match ResolveRange(options, pageCount, last)
      case Err(e) => RunOutcome(disk, [], Err(RangeFailed(e)))
      case Ok(range) =>
        var loop := RunPages(range.start, range.end, IsExplicit(options), disk, inputs.outcomes);
        var combined := Combine(loop.disk.json, pageCount);
        match inputs.combinedWrite
        case Some(message) => RunOutcome(loop.disk, loop.processed, Err(CombineWriteFailed(message)))
        case None => RunOutcome(loop.disk.(combinedFile := Some(combined)), loop.processed, Ok(combined))
  }

  /** `processPDF`: the orchestration with each page's outcome given by its
      `try` block over that page's collaborators. */
  function ProcessPdf(disk: Disk, options: Options, env: Env): RunOutcome {
    Orchestrate(disk, options, RunInputs(env.document, PageOutcomes(env.pages), env.combinedWrite))
  }
}

=== FILE: pipeline_properties.dfy ===
/** Properties of a run of `processPDF` (pdf-aiparser.js, lines 69-264):
    which pages are processed, what the record directory and the error log
    hold afterwards, and what the run returns. */
module PipelineProperties {
  import opened Outcomes
  import opened PageFiles
  import opened PageRange
  import opened PageStore
  import opened Pipeline

  /** The integers a..b in ascending order. */
  function IntRange(a: int, b: int): (s: seq<int>)
    ensures |s| == if a <= b then b - a + 1 else 0
    ensures forall k :: 0 <= k < |s| ==> s[k] == a + k
  {
    seq(if a <= b then b - a + 1 else 0, k => a + k)
  }

  /** The record a visited page ends up with, judged against the directory
      as it was before the loop: kept when skipped, replaced by the new
      record when processing succeeds, kept when processing fails. */
  function Expected(pageNumber: int, explicit: bool, before: JsonDir, outcome: Result<PageResult, string>): Option<PageResult> {
    if Skips(explicit, before, pageNumber) then Lookup(before, pageNumber)
    else match outcome
      case Ok(rec) => Some(rec)
      case Err(_) => Lookup(before, pageNumber)
  }

  /** Every successful outcome is the record of its own page. */
  ghost predicate Numbered(outcomes: int -> Result<PageResult, string>) {
    forall n :: outcomes(n).Ok? ==> outcomes(n).value.pageNumber == n
  }

  /** The per-page `try` block builds the record of the page it processes. */
  lemma PageOutcomesNumbered(pages: int -> PageWorld)
    ensures Numbered(PageOutcomes(pages))
  {
  }

  /** The error-log entries of the pages among `ns` whose processing fails,
      in the order of `ns`. */
  function FailureEntries(ns: seq<int>, outcomes: int -> Result<PageResult, string>): seq<ErrorEntry> {
    if |ns| == 0 then [] else FailureEntry(ns[0], outcomes(ns[0])) + FailureEntries(ns[1..], outcomes)
  }

  /** A failing page among `ns` has its entry among the failure entries. */
  lemma {:induction false} FailureEntryPresent(ns: seq<int>, outcomes: int -> Result<PageResult, string>, n: int)
    requires n in ns
    requires outcomes(n).Err?
    ensures ErrorEntry(n, outcomes(n).error) in FailureEntries(ns, outcomes)
  {
    if ns[0] != n {
      FailureEntryPresent(ns[1..], outcomes, n);
    }
  }

  /** Every failure entry names a page of `ns` whose processing fails, with
      that failure's message. */
  lemma {:induction false} FailureEntriesSound(ns: seq<int>, outcomes: int -> Result<PageResult, string>, e: ErrorEntry)
    requires e in FailureEntries(ns, outcomes)
    ensures e.pageNumber in ns
    ensures outcomes(e.pageNumber) == Err(e.message)
  {
    if outcomes(ns[0]).Ok? || e != ErrorEntry(ns[0], outcomes(ns[0]).error) {
      FailureEntriesSound(ns[1..], outcomes, e);
    }
  }

  /** One visit changes the record of the visited page only, as `Expected`
      says, so what is expected of every other page is unchanged. */
  lemma VisitEffect(pageNumber: int, explicit: bool, disk: Disk, outcome: Result<PageResult, string>, n: int, other: Result<PageResult, string>)
    ensures n != pageNumber ==> Lookup(Visit(pageNumber, disk, outcome).json, n) == Lookup(disk.json, n)
    ensures n != pageNumber ==>
              Expected(n, explicit, Visit(pageNumber, disk, outcome).json, other) == Expected(n, explicit, disk.json, other)
    ensures !Skips(explicit, disk.json, pageNumber) ==>
              Lookup(Visit(pageNumber, disk, outcome).json, pageNumber) == Expected(pageNumber, explicit, disk.json, outcome)
  {
  }

  /** The loop's effect on the record directory: a page in the range holds
      the record `Expected` says, any other page keeps its record. */
  lemma {:induction false} RunPagesStore(start: int, end: int, explicit: bool, disk: Disk, outcomes: int -> Result<PageResult, string>, n: int)
    ensures Lookup(RunPages(start, end, explicit, disk, outcomes).disk.json, n) ==
            if start + 1 <= n <= end + 1 then Expected(n, explicit, disk.json, outcomes(n))
            else Lookup(disk.json, n)
    decreases end + 1 - start
  {
    if start <= end {
      var pageNumber := start + 1;
      if Skips(explicit, disk.json, pageNumber) {
        RunPagesStore(start + 1, end, explicit, disk, outcomes, n);
        assert RunPages(start, end, explicit, disk, outcomes) == RunPages(start + 1, end, explicit, disk, outcomes);
      } else {
        var visited := Visit(pageNumber, disk, outcomes(pageNumber));
        RunPagesStore(start + 1, end, explicit, visited, outcomes, n);
        assert RunPages(start, end, explicit, disk, outcomes).disk == RunPages(start + 1, end, explicit, visited, outcomes).disk;
        VisitEffect(pageNumber, explicit, disk, outcomes(pageNumber), n, outcomes(n));
      }
    }
  }

  /** Every attempted page that succeeds ends with its new record. */
  lemma RunPagesSavesSuccesses(start: int, end: int, explicit: bool, disk: Disk, outcomes: int -> Result<PageResult, string>)
    ensures forall n :: start + 1 <= n <= end + 1 && !Skips(explicit, disk.json, n) && outcomes(n).Ok? ==>
              Lookup(RunPages(start, end, explicit, disk, outcomes).disk.json, n) == Some(outcomes(n).value)
  {
    forall n | start + 1 <= n <= end + 1 && !Skips(explicit, disk.json, n) && outcomes(n).Ok? {
      RunPagesStore(start, end, explicit, disk, outcomes, n);
    }
  }

  /** Every skipped page, every page that fails and every page outside the
      range keeps the record it had. */
  lemma RunPagesKeepsOthers(start: int, end: int, explicit: bool, disk: Disk, outcomes: int -> Result<PageResult, string>)
    ensures forall n :: !(start + 1 <= n <= end + 1) || Skips(explicit, disk.json, n) || outcomes(n).Err? ==>
              Lookup(RunPages(start, end, explicit, disk, outcomes).disk.json, n) == Lookup(disk.json, n)
  {
    forall n | !(start + 1 <= n <= end + 1) || Skips(explicit, disk.json, n) || outcomes(n).Err? {
      RunPagesStore(start, end, explicit, disk, outcomes, n);
    }
  }

  /** The loop attempts exactly the pages of the range that the skip rule,
      applied to the directory as it was before the loop, does not skip.
      Which pages are attempted does not depend on how earlier pages fared. */
  lemma {:induction false} RunPagesProcessed(start: int, end: int, explicit: bool, disk: Disk, outcomes: int -> Result<PageResult, string>, n: int)
    ensures n in RunPages(start, end, explicit, disk, outcomes).processed <==>
            start + 1 <= n <= end + 1 && !Skips(explicit, disk.json, n)
    decreases end + 1 - start
  {
    if start <= end {
      var pageNumber := start + 1;
      if Skips(explicit, disk.json, pageNumber) {
        RunPagesProcessed(start + 1, end, explicit, disk, outcomes, n);
        assert RunPages(start, end, explicit, disk, outcomes) == RunPages(start + 1, end, explicit, disk, outcomes);
      } else {
        var visited := Visit(pageNumber, disk, outcomes(pageNumber));
        RunPagesProcessed(start + 1, end, explicit, visited, outcomes, n);
        assert RunPages(start, end, explicit, disk, outcomes).processed ==
               [pageNumber] + RunPages(start + 1, end, explicit, visited, outcomes).processed;
        if n != pageNumber {
          assert Lookup(visited.json, n) == Lookup(disk.json, n);
        }
      }
    }
  }

  /** The loop attempts pages of its range only, each at most once, in
      strictly ascending order. */
  lemma {:induction false} RunPagesAscending(start: int, end: int, explicit: bool, disk: Disk, outcomes: int -> Result<PageResult, string>)
    ensures forall k :: 0 <= k < |RunPages(start, end, explicit, disk, outcomes).processed| ==>
              start + 1 <= RunPages(start, end, explicit, disk, outcomes).processed[k] <= end + 1
    ensures forall j, k :: 0 <= j < k < |RunPages(start, end, explicit, disk, outcomes).processed| ==>
              RunPages(start, end, explicit, disk, outcomes).processed[j] < RunPages(start, end, explicit, disk, outcomes).processed[k]
    decreases end + 1 - start
  {
    if start <= end {
      var pageNumber := start + 1;
      if Skips(explicit, disk.json, pageNumber) {
        RunPagesAscending(start + 1, end, explicit, disk, outcomes);
        assert RunPages(start, end, explicit, disk, outcomes) == RunPages(start + 1, end, explicit, disk, outcomes);
      } else {
        var visited := Visit(pageNumber, disk, outcomes(pageNumber));
        RunPagesAscending(start + 1, end, explicit, visited, outcomes);
        var rest := RunPages(start + 1, end, explicit, visited, outcomes).processed;
        assert RunPages(start, end, explicit, disk, outcomes).processed == [pageNumber] + rest;
      }
    }
  }

  /** The failure entries of a page followed by more pages. */
  lemma FailureEntriesCons(pageNumber: int, ns: seq<int>, outcomes: int -> Result<PageResult, string>)
    ensures FailureEntries([pageNumber] + ns, outcomes) ==
            FailureEntry(pageNumber, outcomes(pageNumber)) + FailureEntries(ns, outcomes)
  {
    assert ([pageNumber] + ns)[1..] == ns;
  }

  /** Appending to the error log in two steps is appending once. */
  lemma AppendTwice(log: seq<ErrorEntry>, first: seq<ErrorEntry>, second: seq<ErrorEntry>)
    ensures log + first + second == log + (first + second)
  {
  }

  /** The loop only appends to the error log: one entry per attempted page
      that fails, in page order. */
  lemma {:induction false} RunPagesErrorLog(start: int, end: int, explicit: bool, disk: Disk, outcomes: int -> Result<PageResult, string>)
    ensures RunPages(start, end, explicit, disk, outcomes).disk.errorLog ==
            disk.errorLog + FailureEntries(RunPages(start, end, explicit, disk, outcomes).processed, outcomes)
    decreases end + 1 - start
  {
    if start <= end {
      var pageNumber := start + 1;
      if Skips(explicit, disk.json, pageNumber) {
        RunPagesErrorLog(start + 1, end, explicit, disk, outcomes);
        assert RunPages(start, end, explicit, disk, outcomes) == RunPages(start + 1, end, explicit, disk, outcomes);
      } else {
        var visited := Visit(pageNumber, disk, outcomes(pageNumber));
        RunPagesErrorLog(start + 1, end, explicit, visited, outcomes);
        var rest := RunPages(start + 1, end, explicit, visited, outcomes);
        assert RunPages(start, end, explicit, disk, outcomes) == LoopResult(rest.disk, [pageNumber] + rest.processed);
        FailureEntriesCons(pageNumber, rest.processed, outcomes);
        AppendTwice(disk.errorLog, FailureEntry(pageNumber, outcomes(pageNumber)), FailureEntries(rest.processed, outcomes));
      }
    }
  }

  /** The loop keeps the listing in step with the directory and every page
      file holding its own page's record. */
  lemma {:induction false} RunPagesKeepsInvariants(start: int, end: int, explicit: bool, disk: Disk, outcomes: int -> Result<PageResult, string>)
    ensures Listed(disk.json) ==> Listed(RunPages(start, end, explicit, disk, outcomes).disk.json)
    ensures WellFormed(disk.json) && Numbered(outcomes) ==> WellFormed(RunPages(start, end, explicit, disk, outcomes).disk.json)
    decreases end + 1 - start
  {
    if start <= end {
      var pageNumber := start + 1;
      if Skips(explicit, disk.json, pageNumber) {
        RunPagesKeepsInvariants(start + 1, end, explicit, disk, outcomes);
        assert RunPages(start, end, explicit, disk, outcomes) == RunPages(start + 1, end, explicit, disk, outcomes);
      } else {
        var visited := Visit(pageNumber, disk, outcomes(pageNumber));
        RunPagesKeepsInvariants(start + 1, end, explicit, visited, outcomes);
        assert RunPages(start, end, explicit, disk, outcomes).disk == RunPages(start + 1, end, explicit, visited, outcomes).disk;
      }
    }
  }

  /** Visiting a page does not make a later page skippable. */
  lemma VisitKeepsLaterUnskipped(pageNumber: int, last: int, explicit: bool, disk: Disk, outcome: Result<PageResult, string>)
    requires forall n :: pageNumber <= n <= last ==> !Skips(explicit, disk.json, n)
    ensures forall n :: pageNumber < n <= last ==> !Skips(explicit, Visit(pageNumber, disk, outcome).json, n)
  {
    var visited := Visit(pageNumber, disk, outcome);
    forall n | pageNumber < n <= last
      ensures !Skips(explicit, visited.json, n)
    {
      assert !Skips(explicit, disk.json, n);
      assert Lookup(visited.json, n) == Lookup(disk.json, n);
    }
  }

  /** When no page of the range is skipped, the loop attempts every page of
      the range, in ascending order. */
  lemma {:induction false} RunPagesVisitsAll(start: int, end: int, explicit: bool, disk: Disk, outcomes: int -> Result<PageResult, string>)
    requires forall n :: start + 1 <= n <= end + 1 ==> !Skips(explicit, disk.json, n)
    ensures RunPages(start, end, explicit, disk, outcomes).processed == IntRange(start + 1, end + 1)
    decreases end + 1 - start
  {
    if start <= end {
      var pageNumber := start + 1;
      var visited := Visit(pageNumber, disk, outcomes(pageNumber));
      VisitKeepsLaterUnskipped(pageNumber, end + 1, explicit, disk, outcomes(pageNumber));
      RunPagesVisitsAll(start + 1, end, explicit, visited, outcomes);
      var rest := RunPages(start + 1, end, explicit, visited, outcomes);
      assert RunPages(start, end, explicit, disk, outcomes).processed == [pageNumber] + rest.processed;
      IntRangeCons(pageNumber, end + 1);
    }
  }

  /** An explicit loop skips nothing, so it visits every page of its range. */
  lemma ExplicitLoopVisitsAll(start: int, end: int, explicit: bool, disk: Disk, outcomes: int -> Result<PageResult, string>)
    requires explicit
    ensures RunPages(start, end, explicit, disk, outcomes).processed == IntRange(start + 1, end + 1)
  {
    forall n | start + 1 <= n <= end + 1
      ensures !Skips(explicit, disk.json, n)
    {
    }
    RunPagesVisitsAll(start, end, explicit, disk, outcomes);
  }

  /** A loop resuming after the resume point finds no record to skip, so
      it attempts every page after it. */
  lemma ResumeLoopVisitsAll(last: nat, end: int, pageCount: int, disk: Disk, outcomes: int -> Result<PageResult, string>)
    requires Listed(disk.json) && last == ResumePoint(disk.json.names)
    requires end == pageCount - 1
    ensures RunPages(last, end, false, disk, outcomes).processed == IntRange(last + 1, pageCount)
  {
    forall n | last + 1 <= n <= end + 1
      ensures !Skips(false, disk.json, n)
    {
      PagesWithinResumePoint(disk.json, n);
    }
    RunPagesVisitsAll(last, end, false, disk, outcomes);
    assert IntRange(last + 1, end + 1) == IntRange(last + 1, pageCount);
  }

  /** A loop resuming after the resume point leaves the pages up to it
      alone and gives each page after it its new record, or none when its
      processing fails. */
  lemma ResumeLoopStore(last: nat, end: int, disk: Disk, outcomes: int -> Result<PageResult, string>)
    requires Listed(disk.json) && last == ResumePoint(disk.json.names)
    ensures forall n :: n <= last ==>
              Lookup(RunPages(last, end, false, disk, outcomes).disk.json, n) == Lookup(disk.json, n)
    ensures forall n :: last < n <= end + 1 ==>
              Lookup(RunPages(last, end, false, disk, outcomes).disk.json, n) == outcomes(n).ToOption()
  {
    forall n | last < n
      ensures !Has(disk.json, n)
    {
      PagesWithinResumePoint(disk.json, n);
    }
    RunPagesSavesSuccesses(last, end, false, disk, outcomes);
    RunPagesKeepsOthers(last, end, false, disk, outcomes);
  }

  // ---------------------------------------------------------------------
  // Properties of a whole run

  /** After a loaded document and a valid range, the run's processed pages
      are the loop's over that range. */
  lemma RunProcessedIsLoop(disk: Disk, options: Options, inputs: RunInputs, range: Range)
    requires inputs.document.Loaded?
    requires ResolveRange(options, inputs.document.pageCount, ResumePoint(disk.json.names)) == Ok(range)
    ensures Orchestrate(disk, options, inputs).processed ==
            RunPages(range.start, range.end, IsExplicit(options), disk, inputs.outcomes).processed
  {
  }

  /** After a loaded document and a valid range, the run's record
      directory is the loop's. */
  lemma RunStoreIsLoop(disk: Disk, options: Options, inputs: RunInputs, range: Range)
    requires inputs.document.Loaded?
    requires ResolveRange(options, inputs.document.pageCount, ResumePoint(disk.json.names)) == Ok(range)
    ensures Orchestrate(disk, options, inputs).disk.json ==
            RunPages(range.start, range.end, IsExplicit(options), disk, inputs.outcomes).disk.json
  {
  }

  /** After a loaded document and a valid range, the run's error log is
      the loop's. */
  lemma RunErrorLogIsLoop(disk: Disk, options: Options, inputs: RunInputs, range: Range)
    requires inputs.document.Loaded?
    requires ResolveRange(options, inputs.document.pageCount, ResumePoint(disk.json.names)) == Ok(range)
    ensures Orchestrate(disk, options, inputs).disk.errorLog ==
            RunPages(range.start, range.end, IsExplicit(options), disk, inputs.outcomes).disk.errorLog
  {
  }

  /** A run whose range fails validation touches nothing: no page is
      processed, no record, error-log entry or combined file is written. */
  lemma RangeFailureTouchesNothing(disk: Disk, options: Options, inputs: RunInputs)
    requires inputs.document.Loaded?
    requires ResolveRange(options, inputs.document.pageCount, ResumePoint(disk.json.names)).Err?
    ensures Orchestrate(disk, options, inputs) ==
            RunOutcome(disk, [], Err(RangeFailed(ResolveRange(options, inputs.document.pageCount, ResumePoint(disk.json.names)).error)))
  {
  }

  /** Asking for pages 5 to 3 fails on any document before any page work. */
  lemma ReversedRangeFailsCleanly(disk: Disk, inputs: RunInputs)
    requires inputs.document.Loaded?
    ensures Orchestrate(disk, Options(Some(5), Some(3)), inputs).result.Err?
    ensures Orchestrate(disk, Options(Some(5), Some(3)), inputs).disk == disk
    ensures Orchestrate(disk, Options(Some(5), Some(3)), inputs).processed == []
  {
    ReversedRangeRejected(inputs.document.pageCount, ResumePoint(disk.json.names));
  }

  /** A run without an explicit range on a document with pages left to do
      is the loop from the resume point to the last page. */
  lemma ResumeRunIsLoop(disk: Disk, options: Options, inputs: RunInputs, last: nat, end: int)
    requires !IsExplicit(options)
    requires inputs.document.Loaded? && inputs.document.pageCount <= MaxSafeInteger
    requires last == ResumePoint(disk.json.names) && last < inputs.document.pageCount
    requires end == inputs.document.pageCount - 1
    ensures Orchestrate(disk, options, inputs).processed == RunPages(last, end, false, disk, inputs.outcomes).processed
    ensures Orchestrate(disk, options, inputs).disk.json == RunPages(last, end, false, disk, inputs.outcomes).disk.json
    ensures Orchestrate(disk, options, inputs).disk.errorLog == RunPages(last, end, false, disk, inputs.outcomes).disk.errorLog
  {
    var range := Range(last, end);
    ResumeModeRange(options, inputs.document.pageCount, last);
    assert ResolveRange(options, inputs.document.pageCount, last) == Ok(range);
    RunProcessedIsLoop(disk, options, inputs, range);
    RunStoreIsLoop(disk, options, inputs, range);
    RunErrorLogIsLoop(disk, options, inputs, range);
  }

  /** Resume: a run without an explicit range processes exactly the pages
      after the resume point, in order. */
  lemma ResumeProcessesRemainingPages(disk: Disk, options: Options, inputs: RunInputs)
    requires !IsExplicit(options)
    requires Listed(disk.json)
    requires inputs.document.Loaded? && inputs.document.pageCount <= MaxSafeInteger
    requires ResumePoint(disk.json.names) < inputs.document.pageCount
    ensures Orchestrate(disk, options, inputs).processed ==
            IntRange(ResumePoint(disk.json.names) + 1, inputs.document.pageCount)
  {
    var last := ResumePoint(disk.json.names);
    var end := inputs.document.pageCount - 1;
    ResumeRunIsLoop(disk, options, inputs, last, end);
    ResumeLoopVisitsAll(last, end, inputs.document.pageCount, disk, inputs.outcomes);
  }

  /** Resume leaves every page up to the resume point untouched; a page
      after it ends with its new record, or with none when its processing
      fails. */
  lemma ResumeStoreEffect(disk: Disk, options: Options, inputs: RunInputs)
    requires !IsExplicit(options)
    requires Listed(disk.json)
    requires inputs.document.Loaded? && inputs.document.pageCount <= MaxSafeInteger
    requires ResumePoint(disk.json.names) < inputs.document.pageCount
    ensures forall n :: n <= ResumePoint(disk.json.names) ==>
              Lookup(Orchestrate(disk, options, inputs).disk.json, n) == Lookup(disk.json, n)
    ensures forall n :: ResumePoint(disk.json.names) < n <= inputs.document.pageCount ==>
              Lookup(Orchestrate(disk, options, inputs).disk.json, n) == inputs.outcomes(n).ToOption()
  {
    var last := ResumePoint(disk.json.names);
    var end := inputs.document.pageCount - 1;
    ResumeRunIsLoop(disk, options, inputs, last, end);
    ResumeLoopStore(last, end, disk, inputs.outcomes);
  }

  /** An explicit range overrides resume: every page of the resolved range
      is processed, in order, whether or not its record exists. */
  lemma ExplicitRangeVisitsAll(disk: Disk, options: Options, inputs: RunInputs, range: Range)
    requires IsExplicit(options)
    requires inputs.document.Loaded?
    requires ResolveRange(options, inputs.document.pageCount, ResumePoint(disk.json.names)) == Ok(range)
    ensures Orchestrate(disk, options, inputs).processed == IntRange(range.start + 1, range.end + 1)
  {
    RunProcessedIsLoop(disk, options, inputs, range);
    ExplicitLoopVisitsAll(range.start, range.end, IsExplicit(options), disk, inputs.outcomes);
  }

  /** Under an explicit range every page of the range whose processing
      succeeds ends with its new record, overwriting any earlier one. */
  lemma ExplicitRangeOverwrites(disk: Disk, options: Options, inputs: RunInputs, range: Range)
    requires IsExplicit(options)
    requires inputs.document.Loaded?
    requires ResolveRange(options, inputs.document.pageCount, ResumePoint(disk.json.names)) == Ok(range)
    ensures forall n :: range.start + 1 <= n <= range.end + 1 && inputs.outcomes(n).Ok? ==>
              Lookup(Orchestrate(disk, options, inputs).disk.json, n) == Some(inputs.outcomes(n).value)
  {
    RunStoreIsLoop(disk, options, inputs, range);
    RunPagesSavesSuccesses(range.start, range.end, IsExplicit(options), disk, inputs.outcomes);
  }

  /** Page isolation: a page whose processing fails keeps whatever record it
      had, gets an error-log entry naming it, and the loop goes on; the
      error log only grows. */
  lemma PageFailureIsolated(disk: Disk, options: Options, inputs: RunInputs, n: int)
    requires inputs.document.Loaded?
    requires ResolveRange(options, inputs.document.pageCount, ResumePoint(disk.json.names)).Ok?
    requires n in Orchestrate(disk, options, inputs).processed
    requires inputs.outcomes(n).Err?
    ensures var r := Orchestrate(disk, options, inputs);
            && Lookup(r.disk.json, n) == Lookup(disk.json, n)
            && ErrorEntry(n, inputs.outcomes(n).error) in r.disk.errorLog
            && |disk.errorLog| <= |r.disk.errorLog|
            && r.disk.errorLog[..|disk.errorLog|] == disk.errorLog
  {
    var range := ResolveRange(options, inputs.document.pageCount, ResumePoint(disk.json.names)).value;
    var explicit := IsExplicit(options);
    var loop := RunPages(range.start, range.end, explicit, disk, inputs.outcomes);
    RunProcessedIsLoop(disk, options, inputs, range);
    RunStoreIsLoop(disk, options, inputs, range);
    RunErrorLogIsLoop(disk, options, inputs, range);
    RunPagesProcessed(range.start, range.end, explicit, disk, inputs.outcomes, n);
    RunPagesStore(range.start, range.end, explicit, disk, inputs.outcomes, n);
    RunPagesErrorLog(range.start, range.end, explicit, disk, inputs.outcomes);
    FailureEntryPresent(loop.processed, inputs.outcomes, n);
  }

  /** Every error-log entry a run adds names a processed page whose
      processing failed, with that failure's message. */
  lemma ErrorLogEntriesAreFailures(disk: Disk, options: Options, inputs: RunInputs, i: int)
    requires inputs.document.Loaded?
    requires ResolveRange(options, inputs.document.pageCount, ResumePoint(disk.json.names)).Ok?
    requires |disk.errorLog| <= i < |Orchestrate(disk, options, inputs).disk.errorLog|
    ensures var r := Orchestrate(disk, options, inputs);
            && r.disk.errorLog[i].pageNumber in r.processed
            && inputs.outcomes(r.disk.errorLog[i].pageNumber) ==
               Err(r.disk.errorLog[i].message)
  {
    var r := Orchestrate(disk, options, inputs);
    var range := ResolveRange(options, inputs.document.pageCount, ResumePoint(disk.json.names)).value;
    var explicit := IsExplicit(options);
    RunProcessedIsLoop(disk, options, inputs, range);
    RunErrorLogIsLoop(disk, options, inputs, range);
    RunPagesErrorLog(range.start, range.end, explicit, disk, inputs.outcomes);
    var added := FailureEntries(r.processed, inputs.outcomes);
    assert r.disk.errorLog[i] == added[i - |disk.errorLog|];
    FailureEntriesSound(r.processed, inputs.outcomes, r.disk.errorLog[i]);
  }

  /** A run keeps the record directory's invariants; records stay with
      their own pages when every outcome is its own page's record. */
  lemma RunKeepsInvariants(disk: Disk, options: Options, inputs: RunInputs)
    ensures Listed(disk.json) ==> Listed(Orchestrate(disk, options, inputs).disk.json)
    ensures WellFormed(disk.json) && Numbered(inputs.outcomes) ==> WellFormed(Orchestrate(disk, options, inputs).disk.json)
  {
    if inputs.document.Loaded? {
      var r := ResolveRange(options, inputs.document.pageCount, ResumePoint(disk.json.names));
      if r.Ok? {
        RunPagesKeepsInvariants(r.value.start, r.value.end, IsExplicit(options), disk, inputs.outcomes);
      }
    }
  }

  /** The returned combined result of a run on a well-formed directory lists
      the records of pages 1..pageCount on disk after the run, each once,
      in strictly ascending page order. */
  lemma CombinedResultOrdered(disk: Disk, options: Options, inputs: RunInputs)
    requires WellFormed(disk.json) && Numbered(inputs.outcomes)
    requires Orchestrate(disk, options, inputs).result.Ok?
    ensures var r := Orchestrate(disk, options, inputs);
            var rs := r.result.value;
            && (forall j, k :: 0 <= j < k < |rs| ==> rs[j].pageNumber < rs[k].pageNumber)
            && (forall n :: 1 <= n <= inputs.document.pageCount && Has(r.disk.json, n) <==> n in PageNumbers(rs))
  {
    var r := Orchestrate(disk, options, inputs);
    RunKeepsInvariants(disk, options, inputs);
    CombineOrdered(r.disk.json, inputs.document.pageCount);
  }

  /** A fresh run over an empty directory whose options cover the whole
      document, explicitly (as `processPDF(path)` with no options does) or
      by resuming from page 1, and in which every page succeeds, returns
      the new records of pages 1..pageCount, in page order. */
  lemma FreshRunReturnsEveryPage(disk: Disk, options: Options, inputs: RunInputs)
    requires disk.json == JsonDir([], map[])
    requires inputs.document.Loaded? && 1 <= inputs.document.pageCount <= MaxSafeInteger
    requires ResolveRange(options, inputs.document.pageCount, 0) == Ok(Range(0, inputs.document.pageCount - 1))
    requires inputs.combinedWrite.None?
    requires forall n :: 1 <= n <= inputs.document.pageCount ==> inputs.outcomes(n).Ok?
    ensures Orchestrate(disk, options, inputs).result.Ok?
    ensures |Orchestrate(disk, options, inputs).result.value| == inputs.document.pageCount
    ensures forall k :: 0 <= k < inputs.document.pageCount ==>
              Orchestrate(disk, options, inputs).result.value[k] == inputs.outcomes(k + 1).value
  {
    var pageCount := inputs.document.pageCount;
    var r := Orchestrate(disk, options, inputs);
    assert ResumePoint(disk.json.names) == 0;
    assert Listed(disk.json);
    FreshRunStore(disk, options, inputs);
    CombineMatchesPresentPages(r.disk.json, pageCount);
    AllPagesPresent(r.disk.json, pageCount);
  }

  /** `processPDF(path)` with the options omitted, on an empty directory,
      in which every page succeeds, returns the new records of pages
      1..pageCount, in page order. */
  lemma NoOptionsRunReturnsEveryPage(disk: Disk, inputs: RunInputs)
    requires disk.json == JsonDir([], map[])
    requires inputs.document.Loaded? && 1 <= inputs.document.pageCount <= MaxSafeInteger
    requires inputs.combinedWrite.None?
    requires forall n :: 1 <= n <= inputs.document.pageCount ==> inputs.outcomes(n).Ok?
    ensures Orchestrate(disk, NoOptions, inputs).result.Ok?
    ensures |Orchestrate(disk, NoOptions, inputs).result.value| == inputs.document.pageCount
    ensures forall k :: 0 <= k < inputs.document.pageCount ==>
              Orchestrate(disk, NoOptions, inputs).result.value[k] == inputs.outcomes(k + 1).value
  {
    NoOptionsCoverDocument(inputs.document.pageCount, 0);
    FreshRunReturnsEveryPage(disk, NoOptions, inputs);
  }

  /** The store half of `FreshRunReturnsEveryPage`: every page ends with
      its new record, whether the options are explicit or not. */
  lemma FreshRunStore(disk: Disk, options: Options, inputs: RunInputs)
    requires disk.json == JsonDir([], map[])
    requires inputs.document.Loaded? && 1 <= inputs.document.pageCount <= MaxSafeInteger
    requires ResolveRange(options, inputs.document.pageCount, 0) == Ok(Range(0, inputs.document.pageCount - 1))
    requires forall n :: 1 <= n <= inputs.document.pageCount ==> inputs.outcomes(n).Ok?
    ensures forall n :: 1 <= n <= inputs.document.pageCount ==>
              Has(Orchestrate(disk, options, inputs).disk.json, n) &&
              Lookup(Orchestrate(disk, options, inputs).disk.json, n) == Some(inputs.outcomes(n).value)
  {
    var pageCount := inputs.document.pageCount;
    var r := Orchestrate(disk, options, inputs);
    assert ResumePoint(disk.json.names) == 0;
    if IsExplicit(options) {
      ExplicitRangeOverwrites(disk, options, inputs, Range(0, pageCount - 1));
      forall n | 1 <= n <= pageCount
        ensures Has(r.disk.json, n)
      {
        assert Lookup(r.disk.json, n).Some?;
      }
    } else {
      assert Listed(disk.json);
      ResumeStoreEffect(disk, options, inputs);
      forall n | 1 <= n <= pageCount
        ensures Has(r.disk.json, n) && Lookup(r.disk.json, n) == Some(inputs.outcomes(n).value)
      {
        assert Lookup(r.disk.json, n) == inputs.outcomes(n).ToOption();
      }
    }
  }

  /** A loop in which every page of the range succeeds logs nothing. */
  lemma RunPagesLogsNothing(start: int, end: int, explicit: bool, disk: Disk, outcomes: int -> Result<PageResult, string>)
    requires forall n :: start + 1 <= n <= end + 1 ==> outcomes(n).Ok?
    ensures RunPages(start, end, explicit, disk, outcomes).disk.errorLog == disk.errorLog
  {
    var processed := RunPages(start, end, explicit, disk, outcomes).processed;
    RunPagesErrorLog(start, end, explicit, disk, outcomes);
    RunPagesAscending(start, end, explicit, disk, outcomes);
    NoFailureEntries(processed, outcomes);
  }

  /** A run in which every page of the resolved range succeeds logs no
      error. */
  lemma SuccessfulRunLogsNothing(disk: Disk, options: Options, inputs: RunInputs, range: Range)
    requires inputs.document.Loaded?
    requires ResolveRange(options, inputs.document.pageCount, ResumePoint(disk.json.names)) == Ok(range)
    requires forall n :: range.start + 1 <= n <= range.end + 1 ==> inputs.outcomes(n).Ok?
    ensures Orchestrate(disk, options, inputs).disk.errorLog == disk.errorLog
  {
    RunErrorLogIsLoop(disk, options, inputs, range);
    RunPagesLogsNothing(range.start, range.end, IsExplicit(options), disk, inputs.outcomes);
  }

  /** No page among `ns` fails, so no entry is logged. */
  lemma {:induction false} NoFailureEntries(ns: seq<int>, outcomes: int -> Result<PageResult, string>)
    requires forall k :: 0 <= k < |ns| ==> outcomes(ns[k]).Ok?
    ensures FailureEntries(ns, outcomes) == []
  {
    if |ns| > 0 {
      NoFailureEntries(ns[1..], outcomes);
    }
  }

  /** When every page of 1..count has a record, the present pages are
      1..count. */
  lemma {:induction false} AllPagesPresent(dir: JsonDir, count: int)
    requires forall n :: 1 <= n <= count ==> Has(dir, n)
    ensures PresentPages(dir, count) == IntRange(1, count)
    decreases count
  {
    if count >= 1 {
      AllPagesPresent(dir, count - 1);
      assert Has(dir, count);
      assert PresentPages(dir, count) == PresentPages(dir, count - 1) + [count];
      IntRangeSnoc(1, count);
    }
  }

  /** A non-empty range a..b is a followed by a+1..b. */
  lemma IntRangeCons(a: int, b: int)
    requires a <= b
    ensures IntRange(a, b) == [a] + IntRange(a + 1, b)
  {
    var l := IntRange(a, b);
    var r := [a] + IntRange(a + 1, b);
    assert |l| == |r|;
    forall k | 0 <= k < |l|
      ensures l[k] == r[k]
    {
    }
  }

  /** The range a..b is a..b-1 followed by b. */
  lemma IntRangeSnoc(a: int, b: int)
    requires a <= b
    ensures IntRange(a, b) == IntRange(a, b - 1) + [b]
  {
    var l := IntRange(a, b);
    var r := IntRange(a, b - 1) + [b];
    assert |l| == |r|;
    forall k | 0 <= k < |l|
      ensures l[k] == r[k]
    {
    }
  }

  /** The three-page scenario: every page succeeds on an empty directory,
      and the combined result holds the records of pages 1, 2 and 3 in that
      order; when each record names its own page, the page numbers read
      1, 2, 3. */
  lemma ThreePageScenario(disk: Disk, options: Options, inputs: RunInputs)
    requires disk.json == JsonDir([], map[])
    requires options == Options(Some(DefaultStartPage), Some(DefaultEndPage))
    requires inputs.document.Loaded? && inputs.document.pageCount == 3
    requires inputs.combinedWrite.None?
    requires forall n :: 1 <= n <= 3 ==> inputs.outcomes(n).Ok?
    ensures Orchestrate(disk, options, inputs).result ==
            Ok([inputs.outcomes(1).value, inputs.outcomes(2).value, inputs.outcomes(3).value])
    ensures Numbered(inputs.outcomes) ==>
            PageNumbers(Orchestrate(disk, options, inputs).result.value) == [1, 2, 3]
  {
    DefaultOptionsCoverFreshDocument(options, 3);
    FreshRunReturnsEveryPage(disk, options, inputs);
    ThreeRecords(Orchestrate(disk, options, inputs).result, inputs.outcomes);
  }

  /** A result holding the records of pages 1, 2 and 3 in order is that
      list; numbered records read 1, 2, 3. */
  lemma ThreeRecords(result: Result<seq<PageResult>, Fatal>, outcomes: int -> Result<PageResult, string>)
    requires forall n :: 1 <= n <= 3 ==> outcomes(n).Ok?
    requires result.Ok? && |result.value| == 3
    requires forall k :: 0 <= k < 3 ==> result.value[k] == outcomes(k + 1).value
    ensures result == Ok([outcomes(1).value, outcomes(2).value, outcomes(3).value])
    ensures Numbered(outcomes) ==> PageNumbers(result.value) == [1, 2, 3]
  {
    var rs := result.value;
    assert rs[0] == outcomes(1).value;
    assert rs[1] == outcomes(2).value;
    assert rs[2] == outcomes(3).value;
    assert rs == [rs[0], rs[1], rs[2]];
    if Numbered(outcomes) {
      assert outcomes(1).value.pageNumber == 1;
      assert outcomes(2).value.pageNumber == 2;
      assert outcomes(3).value.pageNumber == 3;
      var ns := PageNumbers(rs);
      assert ns == [ns[0], ns[1], ns[2]];
    }
  }
}

=== FILE: text_extraction.dfy ===
/** Two-tier text extraction for one page (pdf-aiparser.js, lines 119-161):
    the single-page tier, the whole-document fallback that splits on page
    break heuristics, and the sentinel strings that stand in for text. */
module TextExtraction {
  import opened Outcomes
  import opened Decimal

  const FormFeed: char := '\U{C}'
  const Newline: char := '\n'

  /** `[Unable to extract text reliably for page N]`: the fallback split
      produced fewer blocks than the page number. */
  function UnreliableSentinel(pageNumber: int): string {
    "[Unable to extract text reliably for page " + IntToString(pageNumber) + "]"
  }

  /** `[Text extraction failed for page N]`: both tiers failed. */
  function FailedSentinel(pageNumber: int): string {
    "[Text extraction failed for page " + IntToString(pageNumber) + "]"
  }

  predicate NoFormFeed(s: string) {
    forall i :: 0 <= i < |s| ==> s[i] != FormFeed
  }

  /** No run of three or more newlines occurs in `s`. */
  predicate NoTriple(s: string) {
    forall i :: 0 <= i && i + 2 < |s| ==>
      !(s[i] == Newline && s[i + 1] == Newline && s[i + 2] == Newline)
  }

  /** A block of the split: contains no page-break separator. */
  predicate IsBlock(s: string) {
    NoFormFeed(s) && NoTriple(s)
  }

  /** A page-break separator of `/\f|\n{3,}/`. */
  predicate IsSeparator(s: string) {
    s == [FormFeed] || (|s| >= 3 && forall i :: 0 <= i < |s| ==> s[i] == Newline)
  }

  /** Length of the run of newlines at the start of `s`. */
  function NewlineRun(s: string): (k: nat)
    ensures k <= |s|
    ensures forall j :: 0 <= j < k ==> s[j] == Newline
    ensures k < |s| ==> s[k] != Newline
  {
    if |s| == 0 || s[0] != Newline then 0 else 1 + NewlineRun(s[1..])
  }

  /** The pieces of a split: blocks with the separators between them. */
  datatype Pieces = Pieces(blocks: seq<string>, separators: seq<string>)

  /** `String.prototype.split` by `/\f|\n{3,}/`, scanning `s` from the left
      while `cur` holds the part of the current block already read. A form
      feed is a separator by itself; a newline run is one only when it is
      three or more long, and then the whole run is consumed (the
      quantifier is greedy). */
  function SplitFrom(s: string, cur: string): (p: Pieces)
    ensures |p.blocks| == |p.separators| + 1
    decreases |s|
  {
    if |s| == 0 then Pieces([cur], [])
    else if s[0] == FormFeed then
      var rest := SplitFrom(s[1..], "");
      Pieces([cur] + rest.blocks, [[FormFeed]] + rest.separators)
    else
      var k := NewlineRun(s);
      if k >= 3 then
        var rest := SplitFrom(s[k..], "");
        Pieces([cur] + rest.blocks, [s[..k]] + rest.separators)
      else SplitFrom(s[1..], cur + [s[0]])
  }

  /** `fullText.split(/\f|\n{3,}/)`. */
  function SplitBlocks(text: string): (blocks: seq<string>)
    ensures |blocks| >= 1
  {
    SplitFrom(text, "").blocks
  }

  /** Puts the separators back between the blocks. */
  function Interleave(blocks: seq<string>, separators: seq<string>): string
    requires |blocks| == |separators| + 1
  {
    if |separators| == 0 then blocks[0]
    else blocks[0] + separators[0] + Interleave(blocks[1..], separators[1..])
  }

  /** Joins page texts with form feeds, the page break the fallback expects. */
  function JoinPages(pages: seq<string>): string
    requires |pages| >= 1
  {
    if |pages| == 1 then pages[0] else pages[0] + [FormFeed] + JoinPages(pages[1..])
  }

  /** The fallback tier given the whole document's text: block N-1 when the
      split has at least N blocks, otherwise the unreliable sentinel. A page
      number below 1 indexes outside the array and gives `''`. */
  function FallbackText(fullText: string, pageNumber: int): string {
    var blocks := SplitBlocks(fullText);
    if |blocks| >= pageNumber then
      if pageNumber >= 1 then blocks[pageNumber - 1] else ""
    else UnreliableSentinel(pageNumber)
  }

  /** The text of page N: the single-page tier's text when it succeeds,
      else the fallback tier's text when the whole-document parse succeeds,
      else the failure sentinel. Extraction never fails the page. */
  function ExtractText(pageNumber: int, singlePage: Option<string>, wholeDocument: Option<string>): string {
    match singlePage
    case Some(text) => text
    case None =>
      match wholeDocument
      case Some(fullText) => FallbackText(fullText, pageNumber)
      case None => FailedSentinel(pageNumber)
  }

  // ---------------------------------------------------------------------
  // Properties of the split

  /** The split loses nothing: putting the separators back gives the text. */
  lemma {:induction false} SplitRoundTrip(s: string, cur: string)
    ensures var p := SplitFrom(s, cur); Interleave(p.blocks, p.separators) == cur + s
    decreases |s|
  {
    var p := SplitFrom(s, cur);
    if |s| == 0 {
    } else if s[0] == FormFeed {
      SplitRoundTrip(s[1..], "");
      assert p.blocks[1..] == SplitFrom(s[1..], "").blocks;
      assert p.separators[1..] == SplitFrom(s[1..], "").separators;
      assert s == [FormFeed] + s[1..];
    } else if NewlineRun(s) >= 3 {
      var k := NewlineRun(s);
      SplitRoundTrip(s[k..], "");
      assert p.blocks[1..] == SplitFrom(s[k..], "").blocks;
      assert p.separators[1..] == SplitFrom(s[k..], "").separators;
      assert s == s[..k] + s[k..];
    } else {
      SplitRoundTrip(s[1..], cur + [s[0]]);
      assert (cur + [s[0]]) + s[1..] == cur + s;
    }
  }

  /** While scanning, the block being read never ends in newlines that the
      rest of the text would extend to a run of three. */
  predicate ScanInvariant(cur: string, s: string) {
    && IsBlock(cur)
    && (|cur| >= 1 && cur[|cur| - 1] == Newline ==> NewlineRun(s) <= 1)
    && (|cur| >= 2 && cur[|cur| - 1] == Newline && cur[|cur| - 2] == Newline ==> NewlineRun(s) == 0)
  }

  /** Reading one character that starts no separator keeps the scan
      invariant. */
  lemma ScanStep(cur: string, s: string)
    requires ScanInvariant(cur, s)
    requires |s| > 0 && s[0] != FormFeed && NewlineRun(s) < 3
    ensures ScanInvariant(cur + [s[0]], s[1..])
  {
    var cur' := cur + [s[0]];
    if s[0] == Newline {
      assert NewlineRun(s) == 1 + NewlineRun(s[1..]);
    }
    assert NoFormFeed(cur');
    assert NoTriple(cur') by {
      forall i | 0 <= i && i + 2 < |cur'|
        ensures !(cur'[i] == Newline && cur'[i + 1] == Newline && cur'[i + 2] == Newline)
      {
        if i + 2 < |cur| {
          assert cur'[i..i + 3] == cur[i..i + 3];
        }
      }
    }
  }

  /** Every block is free of separators and every separator is one. */
  lemma {:induction false} SplitShape(s: string, cur: string)
    requires ScanInvariant(cur, s)
    ensures forall i :: 0 <= i < |SplitFrom(s, cur).blocks| ==> IsBlock(SplitFrom(s, cur).blocks[i])
    ensures forall i :: 0 <= i < |SplitFrom(s, cur).separators| ==> IsSeparator(SplitFrom(s, cur).separators[i])
    decreases |s|
  {
    var p := SplitFrom(s, cur);
    if |s| == 0 {
    } else if s[0] == FormFeed {
      SplitShape(s[1..], "");
      assert p.blocks == [cur] + SplitFrom(s[1..], "").blocks;
      assert p.separators == [[FormFeed]] + SplitFrom(s[1..], "").separators;
    } else if NewlineRun(s) >= 3 {
      var k := NewlineRun(s);
      assert IsSeparator(s[..k]);
      assert ScanInvariant("", s[k..]);
      SplitShape(s[k..], "");
      assert p.blocks == [cur] + SplitFrom(s[k..], "").blocks;
      assert p.separators == [s[..k]] + SplitFrom(s[k..], "").separators;
    } else {
      var cur' := cur + [s[0]];
      ScanStep(cur, s);
      SplitShape(s[1..], cur');
      assert p == SplitFrom(s[1..], cur');
    }
  }

  /** The blocks of any text are free of separators. */
  lemma SplitBlocksAreBlocks(text: string)
    ensures forall i :: 0 <= i < |SplitBlocks(text)| ==> IsBlock(SplitBlocks(text)[i])
  {
    assert ScanInvariant("", text);
    SplitShape(text, "");
    var p := SplitFrom(text, "");
    assert forall i :: 0 <= i < |p.blocks| ==> IsBlock(p.blocks[i]);
    assert SplitBlocks(text) == p.blocks;
  }

  predicate StartsWithNewline(b: string) {
    |b| > 0 && b[0] == Newline
  }

  predicate EndsWithNewline(b: string) {
    |b| > 0 && b[|b| - 1] == Newline
  }

  /** Around separator i, when it is a newline run, the text holds no
      further newline: the run was taken whole (the `{3,}` is greedy and the
      scan starts a match at the first newline of a run). The character
      after the run is the next block's first, or, when that block is
      empty, the next separator's first. */
  predicate GreedyAt(p: Pieces, i: int)
    requires |p.blocks| == |p.separators| + 1 && 0 <= i < |p.separators|
  {
    StartsWithNewline(p.separators[i]) ==>
      && !EndsWithNewline(p.blocks[i])
      && !StartsWithNewline(p.blocks[i + 1])
      && !(p.blocks[i + 1] == [] && i + 1 < |p.separators| && StartsWithNewline(p.separators[i + 1]))
  }

  predicate Greedy(p: Pieces) {
    |p.blocks| == |p.separators| + 1 &&
    forall i :: 0 <= i < |p.separators| ==> GreedyAt(p, i)
  }

  /** The text of the pieces does not begin with a newline. */
  predicate LeadsWithoutNewline(p: Pieces)
    requires |p.blocks| == |p.separators| + 1
  {
    !StartsWithNewline(p.blocks[0]) &&
    !(p.blocks[0] == [] && |p.separators| > 0 && StartsWithNewline(p.separators[0]))
  }

  /** The block being read is the start of the first block of the split. */
  lemma {:induction false} SplitHead(s: string, cur: string)
    ensures |SplitFrom(s, cur).blocks[0]| >= |cur|
    ensures SplitFrom(s, cur).blocks[0][..|cur|] == cur
    ensures |s| == 0 ==> SplitFrom(s, cur).blocks[0] == cur && SplitFrom(s, cur).separators == []
    ensures |s| > 0 && s[0] == FormFeed ==>
              SplitFrom(s, cur).blocks[0] == cur && SplitFrom(s, cur).separators[0] == [FormFeed]
    ensures |s| > 0 && s[0] != FormFeed && s[0] != Newline ==>
              |SplitFrom(s, cur).blocks[0]| > |cur| && SplitFrom(s, cur).blocks[0][|cur|] == s[0]
    decreases |s|
  {
    if |s| > 0 && s[0] != FormFeed && NewlineRun(s) < 3 {
      var cur' := cur + [s[0]];
      SplitHead(s[1..], cur');
      var b := SplitFrom(s, cur).blocks[0];
      assert b == SplitFrom(s[1..], cur').blocks[0];
      assert b[..|cur|] == b[..|cur'|][..|cur|];
    }
  }

  /** Text that does not begin with a newline splits into pieces that do
      not begin with one. */
  lemma SplitLeads(t: string)
    requires |t| == 0 || t[0] != Newline
    ensures LeadsWithoutNewline(SplitFrom(t, ""))
  {
    SplitHead(t, "");
  }

  /** Prepending a block and a separator keeps a split greedy when a newline
      separator sits between a block not ending in a newline and text not
      beginning with one. */
  lemma GreedyCons(b: string, sep: string, rest: Pieces)
    requires Greedy(rest)
    requires StartsWithNewline(sep) ==> !EndsWithNewline(b) && LeadsWithoutNewline(rest)
    ensures Greedy(Pieces([b] + rest.blocks, [sep] + rest.separators))
  {
    var p := Pieces([b] + rest.blocks, [sep] + rest.separators);
    forall i | 0 <= i < |p.separators|
      ensures GreedyAt(p, i)
    {
      if i > 0 {
        assert GreedyAt(rest, i - 1);
        assert p.blocks[i] == rest.blocks[i - 1] && p.blocks[i + 1] == rest.blocks[i];
        assert p.separators[i] == rest.separators[i - 1];
      }
    }
  }

  /** The split takes every newline run of three or more whole. */
  lemma {:induction false} SplitGreedy(s: string, cur: string)
    requires ScanInvariant(cur, s)
    ensures Greedy(SplitFrom(s, cur))
    decreases |s|
  {
    if |s| == 0 {
    } else if s[0] == FormFeed {
      SplitGreedy(s[1..], "");
      GreedyCons(cur, [FormFeed], SplitFrom(s[1..], ""));
    } else if NewlineRun(s) >= 3 {
      var k := NewlineRun(s);
      SplitGreedy(s[k..], "");
      SplitLeads(s[k..]);
      GreedyCons(cur, s[..k], SplitFrom(s[k..], ""));
    } else {
      ScanStep(cur, s);
      SplitGreedy(s[1..], cur + [s[0]]);
    }
  }

  /** The split of any text is greedy. */
  lemma SplitBlocksGreedy(text: string)
    ensures Greedy(SplitFrom(text, ""))
  {
    SplitGreedy(text, "");
  }

  /** Six newlines between `a` and `b` are one separator, not two: the
      pieces that split the run in two are not greedy. */
  lemma SixNewlinesOneSeparator()
    ensures !Greedy(Pieces(["a", "", "b"], ["\n\n\n", "\n\n\n"]))
  {
    assert !GreedyAt(Pieces(["a", "", "b"], ["\n\n\n", "\n\n\n"]), 0);
  }

  /** Reading through a block that is followed by a form feed (or by the end
      of the text) adds the whole block to the current one. */
  lemma {:induction false} SplitThroughBlock(b: string, t: string, cur: string)
    requires IsBlock(b)
    requires |t| == 0 || t[0] == FormFeed
    ensures SplitFrom(b + t, cur) == SplitFrom(t, cur + b)
    decreases |b|
  {
    if |b| > 0 {
      var s := b + t;
      assert s[0] == b[0];
      var k := NewlineRun(s);
      assert k <= |b| by {
        if |t| > 0 {
          assert s[|b|] == FormFeed;
        }
      }
      if |b| >= 3 {
        assert !(b[0] == Newline && b[1] == Newline && b[2] == Newline);
        assert s[1] == b[1] && s[2] == b[2];
      }
      assert k < 3;
      assert s[1..] == b[1..] + t;
      assert IsBlock(b[1..]) by {
        forall i | 0 <= i && i + 2 < |b[1..]|
          ensures !(b[1..][i] == Newline && b[1..][i + 1] == Newline && b[1..][i + 2] == Newline)
        {
          assert b[1..][i] == b[i + 1] && b[1..][i + 1] == b[i + 2] && b[1..][i + 2] == b[i + 3];
        }
      }
      SplitThroughBlock(b[1..], t, cur + [b[0]]);
      assert (cur + [b[0]]) + b[1..] == cur + b;
    } else {
      assert b + t == t;
      assert cur + b == cur;
    }
  }

  /** Pages joined with form feeds split back into the same pages, provided
      no page contains a separator itself. */
  lemma {:induction false} SplitJoinPages(pages: seq<string>)
    requires |pages| >= 1
    requires forall i :: 0 <= i < |pages| ==> IsBlock(pages[i])
    ensures SplitBlocks(JoinPages(pages)) == pages
    decreases |pages|
  {
    if |pages| == 1 {
      SplitThroughBlock(pages[0], "", "");
      assert pages[0] + "" == pages[0];
      assert "" + pages[0] == pages[0];
    } else {
      var rest := JoinPages(pages[1..]);
      var t := [FormFeed] + rest;
      assert JoinPages(pages) == pages[0] + t;
      SplitThroughBlock(pages[0], t, "");
      assert "" + pages[0] == pages[0];
      assert t[1..] == rest;
      SplitJoinPages(pages[1..]);
      assert SplitFrom(t, pages[0]).blocks == [pages[0]] + SplitBlocks(rest);
      assert pages == [pages[0]] + pages[1..];
    }
  }

  // ---------------------------------------------------------------------
  // Properties of the extraction tiers

  /** A successful single-page tier decides the text: the fallback input is
      never consulted. */
  lemma SinglePageTierWins(pageNumber: int, text: string, whole1: Option<string>, whole2: Option<string>)
    ensures ExtractText(pageNumber, Some(text), whole1) == text
    ensures ExtractText(pageNumber, Some(text), whole1) == ExtractText(pageNumber, Some(text), whole2)
  {
  }

  /** When the document text is its pages joined by form feeds, the fallback
      finds page N for every N within the document and reports the
      unreliable sentinel beyond it. */
  lemma FallbackFindsPage(pages: seq<string>, pageNumber: int)
    requires |pages| >= 1
    requires forall i :: 0 <= i < |pages| ==> IsBlock(pages[i])
    ensures 1 <= pageNumber <= |pages| ==> FallbackText(JoinPages(pages), pageNumber) == pages[pageNumber - 1]
    ensures pageNumber > |pages| ==> FallbackText(JoinPages(pages), pageNumber) == UnreliableSentinel(pageNumber)
  {
    SplitJoinPages(pages);
  }

  /** A document text without any page break is a single block: page 1
      receives all of it and every later page the unreliable sentinel. */
  lemma FallbackWithoutBreaks(fullText: string, pageNumber: int)
    requires IsBlock(fullText)
    ensures pageNumber == 1 ==> FallbackText(fullText, pageNumber) == fullText
    ensures pageNumber >= 2 ==> FallbackText(fullText, pageNumber) == UnreliableSentinel(pageNumber)
  {
    FallbackFindsPage([fullText], pageNumber);
  }

  /** The fallback's text for a page inside the split is itself a block:
      it never spans a page break. */
  lemma FallbackTextIsBlock(fullText: string, pageNumber: int)
    requires 1 <= pageNumber <= |SplitBlocks(fullText)|
    ensures IsBlock(FallbackText(fullText, pageNumber))
  {
    SplitBlocksAreBlocks(fullText);
  }

  /** The three outcomes of extracting page N's text: the single-page
      tier's text when it succeeds; otherwise, when the whole document
      parses, block N-1 of its split, or the unreliable sentinel when the
      split has fewer than N blocks; otherwise the failure sentinel. */
  lemma ExtractionTiers(pageNumber: int, singlePage: Option<string>, wholeDocument: Option<string>)
    ensures singlePage.Some? ==> ExtractText(pageNumber, singlePage, wholeDocument) == singlePage.value
    ensures singlePage.None? && wholeDocument.Some? && 1 <= pageNumber <= |SplitBlocks(wholeDocument.value)| ==>
              ExtractText(pageNumber, singlePage, wholeDocument) == SplitBlocks(wholeDocument.value)[pageNumber - 1]
    ensures singlePage.None? && wholeDocument.Some? && pageNumber > |SplitBlocks(wholeDocument.value)| ==>
              ExtractText(pageNumber, singlePage, wholeDocument) == UnreliableSentinel(pageNumber)
    ensures singlePage.None? && wholeDocument.Some? && pageNumber < 1 ==>
              ExtractText(pageNumber, singlePage, wholeDocument) == ""
    ensures singlePage.None? && wholeDocument.None? ==>
              ExtractText(pageNumber, singlePage, wholeDocument) == FailedSentinel(pageNumber)
  {
  }

  /** The sentinels' text, with the page number rendered. */
  lemma SentinelTexts()
    ensures UnreliableSentinel(12) == "[Unable to extract text reliably for page 12]"
    ensures FailedSentinel(12) == "[Text extraction failed for page 12]"
  {
    assert IntToString(12) == "12";
  }
}
